=== FILE: README.md ===
# TetrECS game engine in Dafny

TetrECS is a falling-block puzzle played on a 5x5 board. The player places
3x3 pieces; every row or column that fills up is cleared and scores
`lines x blocks x 10 x multiplier`. A penalty timer takes a life whenever the
player is too slow. Scores are kept in a `name:score` text file.

This project models the deterministic core of the game and proves
properties of it:

| module | file | what it models |
|---|---|---|
| `JavaInt` | `java_int.dfy` | Java `int`: 32-bit wrap-around, truncating division, `Integer.toString`/`Integer.parseInt` |
| `JavaText` | `java_text.dfy` | `String.split(":")` (trailing empty parts dropped) and `BufferedReader.readLine` (`\n`, `\r`, `\r\n`) |
| `Board` | `board.dfy` | the grid: construction, `get` (which returns -1 off the board), `set`, zeroing cleared cells |
| `Pieces` | `pieces.dfy` | a piece as an opaque 3x3 footprint plus a colour value |
| `Placement` | `placement.dfy` | `canPlayPiece` and `playPiece` (the same in both copies of `Grid`) |
| `CellCount` | `cell_count.dfy` | counting the cells covered by a set of full rows and full columns |
| `LineClear` | `line_clear.dfy` | `afterPiece` of the main grid: full rows and columns, the union of their cells |
| `LineClearVariant` | `line_clear_variant.dfy` | `afterPiece` of the earlier grid: a coordinate list with repeats, and `size()/5` lines |
| `Game` | `game.dfy` | the game state and its events: level, timer delay, scoring, ticks, pieces, clicks, Enter, the keyboard cursor |
| `Scores` | `scores.dfy` | the score file: parsing, stable sorting, loading, and the append decision of `writeScores` |
| `PieceBoard` | `piece_board.dfy` | the 3x3 preview of a piece, with its centre forced to 1 |

The engine is modelled as pure functions on immutable values. Listeners,
sounds and the UI are replaced by their observable effect on the state:
- The cells `afterPiece` reports are returned as a set (main grid) or a list
  (earlier grid).
- The board listener's zeroing of those cells is `Board.Zero` / `Game.ClearCells`.
  It is a separate step because the listener zeroes each cell only after
  `Platform.runLater` and a 1500 ms fade. A click inside that window still
  sees the full lines on the board.
- A random draw, the catalogue `GamePiece.createPiece` would build from, the
  piece's rotation and the player's name are all parameters.

Behaviour of the code worth knowing:
- `canPlayPiece` never rejects for footprint cells off the board (`get`
  returns -1 there). `playPiece` then throws part-way through its writes.
  `Placement.PlayPiece` returns `OutOfBounds` with the partly written board,
  and `Game.Click` has a `Faulted` outcome in which no scoring and no next
  piece happen.
- The cursor marker 16 counts as an occupied cell, both for line detection
  and for any test `> 0`. Only `canPlayPiece` lets a piece cover it.
- Reaching zero lives does not end the game state. The next tick signals
  game over, cancels the timer and still takes a life. No tick follows
  until a placement restarts the timer, and the game-over listener leaves
  the game scene for the scores scene.
- The main grid scans with `get(row, col)`, i.e. transposed. What it calls a
  row is a board column. On the square board it finds exactly the full lines.
- `score` adds nothing when the product is 0, and otherwise adds in `int`
  arithmetic, which wraps.

## Model

| member | source | states |
|---|---|---|
| JavaInt.Wrap | src/main/java/uk/ac/soton/comp1206/game/Game.java:336 | the result is a 32-bit value congruent to the exact one modulo 2^32, and equal to it when it is in range |
| JavaInt.Div | src/main/java/uk/ac/soton/comp1206/game/Game.java:321 | Java division truncates toward zero: the quotient times the divisor lies within one divisor of the numerator on the side of zero, and has the numerator's sign |
| JavaInt.DivNegate | src/main/java/uk/ac/soton/comp1206/game/Game.java:321 | negating the numerator negates the quotient, as truncation toward zero does |
| JavaInt.ParseIntToString | src/main/java/uk/ac/soton/comp1206/scene/ScoresScene.java:64 | `Integer.parseInt` reads back every 32-bit value `toString` writes |
| JavaText.Split | src/main/java/uk/ac/soton/comp1206/scene/ScoresScene.java:61 | no part contains the separator, and a string without one splits into itself |
| JavaText.SplitOfPair | src/main/java/uk/ac/soton/comp1206/scene/ScoresScene.java:61-63 | `name:value` splits into exactly `[name, value]` when neither contains ':' and the value is non-empty |
| JavaText.ReadLinesAppend | src/main/java/uk/ac/soton/comp1206/scene/ScoresScene.java:60 | appending `\n` plus a line to unterminated text adds exactly that line to what `readLine` returns |
| JavaText.ReadLinesNoTerminator | src/main/java/uk/ac/soton/comp1206/scene/ScoresScene.java:60 | no line `readLine` returns contains `\n` or `\r` |
| Board.New | src/main/java/uk/ac/soton/comp1206/game/Grid.java:56-69 | a new grid has the requested shape and every cell is 0 |
| Board.Get | src/main/java/uk/ac/soton/comp1206/game/Grid.java:101-109 | the stored value on the board, -1 for every position off it |
| Board.Set | src/main/java/uk/ac/soton/comp1206/game/Grid.java:90-92 | the written cell holds the value, and every other cell and the shape are unchanged |
| Board.GetAfterSet | src/main/java/uk/ac/soton/comp1206/game/Grid.java:90-109 | `get` after `set` yields the written value at that cell and the old reading at every other position, on or off the board |
| Board.Zero | src/main/java/uk/ac/soton/comp1206/scene/ChallengeScene.java:164-184 | the cells in the reported set become 0, and every other cell is unchanged |
| Placement.CanPlayPiece | src/main/java/uk/ac/soton/comp1206/game/Grid.java:131-147 | rejects exactly when some occupied footprint entry lands on a cell holding a value above 0 other than 16 |
| Placement.CheckPlacement | tetrecs/src/main/java/uk/ac/soton/comp1206/game/Grid.java:119-134 | the nested early-exit loop of the earlier copy accepts exactly what `CanPlayPiece` accepts |
| Placement.PlayPiece | src/main/java/uk/ac/soton/comp1206/game/Grid.java:150-163 | succeeds exactly when the whole footprint is on the board; then the covered cells hold the piece value and nothing else changes; otherwise only covered cells may have changed |
| Placement.AcceptedPlacementKeepsBoard | tetrecs/src/main/java/uk/ac/soton/comp1206/game/Grid.java:137-150 | an accepted placement that fits overwrites only empty cells or cursor markers, and keeps every other colour |
| Placement.CanPlayAcceptsOffBoard | src/main/java/uk/ac/soton/comp1206/game/Grid.java:136 | a solid piece at the corner (0, 0) of an empty 5x5 board is accepted, yet part of it is off the board and the write fails |
| CellCount.ClearedSize | src/main/java/uk/ac/soton/comp1206/game/Grid.java:199-213 | the union of R full rows and C full columns on a board with `cols` columns and `rows` rows has R·cols + C·rows − R·C cells |
| LineClear.Scan | src/main/java/uk/ac/soton/comp1206/game/Grid.java:165-213 | the reported cells are the union of the full lines, the line count is rows plus columns, the block count is the size of the union |
| LineClear.ScanFindsFilledLines | src/main/java/uk/ac/soton/comp1206/game/Grid.java:170-197 | on a square board a scanned line is full iff every cell of that board column or row is above 0, and a cell is reported iff it lies on such a line |
| LineClear.NonSquareScanMissesLines | src/main/java/uk/ac/soton/comp1206/game/Grid.java:173 | on a full board of 2 columns and 3 rows, board row 0 is filled, yet the transposed scan records no such line and leaves cell (0, 2), which lies on two filled lines, unreported |
| LineClear.FiveByFiveCounts | src/main/java/uk/ac/soton/comp1206/game/Grid.java:212-213 | on the 5x5 board one line gives 5 blocks, and a row with a column gives 9 |
| LineClear.ClearLeavesNoFullLine | src/main/java/uk/ac/soton/comp1206/game/Grid.java:199-234 | on a square board, zeroing the reported cells leaves no full line |
| LineClearVariant.ScanLine | tetrecs/src/main/java/uk/ac/soton/comp1206/game/Grid.java:158-175 | the counting loop with its early exit records a line exactly when its occupied cells reach the column count |
| LineClearVariant.ScanVariant | tetrecs/src/main/java/uk/ac/soton/comp1206/game/Grid.java:152-203 | blocks is the list length, which is the column count times the recorded lines; lines is that length divided by 5; the list is empty iff nothing is recorded |
| LineClearVariant.SameCellsOnSquareBoard | tetrecs/src/main/java/uk/ac/soton/comp1206/game/Grid.java:214-217 | on a square board the listed coordinates are exactly the cells the main grid reports |
| LineClearVariant.FiveByFiveVariant | tetrecs/src/main/java/uk/ac/soton/comp1206/game/Grid.java:202-203 | on 5x5 the line count agrees with the main grid, and the block count exceeds it by rows × columns crossings |
| LineClearVariant.RowAndColumnCountTwice | tetrecs/src/main/java/uk/ac/soton/comp1206/game/Grid.java:165-169 | one full row with one full column on 5x5 gives 10 blocks and 2 lines, where the main grid counts 9 cells |
| LineClearVariant.ThreeColumnsMiscount | tetrecs/src/main/java/uk/ac/soton/comp1206/game/Grid.java:202 | on a 3x3 board one recorded row gives 0 lines |
| Game.Level | src/main/java/uk/ac/soton/comp1206/game/Game.java:320-324 | the level is the score's thousands, truncated toward zero: level·1000 ≤ score < level·1000 + 1000 for a non-negative score |
| Game.TimerDelay | src/main/java/uk/ac/soton/comp1206/game/Game.java:143-149 | the delay is the larger of 2500 and 12000 − 500·level |
| Game.DelayShrinksWithLevel | src/main/java/uk/ac/soton/comp1206/game/Game.java:144 | a higher level never gives a longer delay |
| Game.DelayFloor | src/main/java/uk/ac/soton/comp1206/game/Game.java:144 | the delay reaches its floor of 2500 exactly from level 19 on |
| Game.Score | src/main/java/uk/ac/soton/comp1206/game/Game.java:326-345 | only score and level change; the new score is congruent to old + lines·blocks·10·multiplier modulo 2^32 and in `int` range; the level follows the new score |
| Game.ScoreExact | src/main/java/uk/ac/soton/comp1206/game/Game.java:336-343 | without overflow the score grows by exactly the product; no line leaves the game unchanged |
| Game.AfterPiece | src/main/java/uk/ac/soton/comp1206/game/Grid.java:212-223 | reports the scan's cells; only score, level and multiplier change; no line resets the multiplier to 0 and changes nothing else, a line raises it by 1 and adds lines x blocks x 10 x the new multiplier to the score (modulo 2^32); any changed score is an `int` and the level is recomputed from it |
| Game.ClearingScores | src/main/java/uk/ac/soton/comp1206/game/Grid.java:215-223 | a placement that completes a line on a square board scores lines·blocks·10·(multiplier+1), which is positive |
| Game.AfterPieceVariant | tetrecs/src/main/java/uk/ac/soton/comp1206/game/Grid.java:195-217 | the earlier grid's step reports the listed coordinates; only score, level and multiplier change, so board, pieces, lives and timer are kept; with nothing listed it resets the multiplier and changes nothing else; with any coordinate listed the multiplier rises by 1 and the score by the variant's lines x blocks x 10 x the new multiplier (modulo 2^32), the level following the score |
| Game.VariantClearsSameCells | tetrecs/src/main/java/uk/ac/soton/comp1206/game/Grid.java:214-217 | on 5x5 both grids clear the same cells |
| Game.VariantOverScores | tetrecs/src/main/java/uk/ac/soton/comp1206/game/Grid.java:202-205 | on 5x5, a full row together with a full column scores strictly more with the earlier grid |
| Game.NextPiece | src/main/java/uk/ac/soton/comp1206/game/Game.java:347-364 | the following piece becomes current, the drawn kind follows, and nothing else changes |
| Game.Swap | src/main/java/uk/ac/soton/comp1206/game/Game.java:366-375 | the current and the following piece trade places and nothing else changes |
| Game.SwapTwice | src/main/java/uk/ac/soton/comp1206/game/Game.java:366-375 | swapping twice restores the game |
| Game.Rotate | src/main/java/uk/ac/soton/comp1206/game/Game.java:233-249 | only the current piece changes, to its turned form |
| Game.GameLoop | src/main/java/uk/ac/soton/comp1206/game/Game.java:206-219 | game over is signalled iff lives were 0; the timer is cancelled only then; the multiplier becomes 1; one life is taken; the queue advances; score, level, board and cursor stay |
| Game.GameOverSignalledOnce | src/main/java/uk/ac/soton/comp1206/game/Game.java:206-231 | at 0 lives a tick signals game over, leaves -1 lives and a cancelled timer; a rejected click leaves the timer cancelled, and after an accepted one restarts it the next tick signals nothing |
| Game.TicksCountDownLives | src/main/java/uk/ac/soton/comp1206/game/Game.java:206-219 | n ticks take exactly n lives and keep the score and the timer, as long as lives do not run out |
| Game.Start | src/main/java/uk/ac/soton/comp1206/game/Game.java:380-397 | `start` and `initialiseGame` start the timer at 12000 ms and draw the current and following pieces; with the field initialisers of Game.java:56-59 a new game also has an empty board, score 0, level 0, 3 lives and multiplier 0 |
| Game.Click | src/main/java/uk/ac/soton/comp1206/game/Game.java:404-422 | rejected iff `canPlayPiece` refuses, and then only the flag clears; accepted clicks set the flag and restart the timer at the old level's delay; a placement that fits writes the piece, reports the scan of the new board, takes score, level and multiplier from `afterPiece` on that board and advances the queue; one that does not fit faults, keeping the cells `playPiece` wrote before the throw and changing nothing else |
| Game.PlacementScores | src/main/java/uk/ac/soton/comp1206/game/Game.java:404-422 | a placement without a full line sets the multiplier to 0 and keeps score and level; one with a full line on a square board, short of wrap-around, adds one to the multiplier and lines·blocks·10·(multiplier+1) to the score |
| Game.Enter | src/main/java/uk/ac/soton/comp1206/game/Game.java:488-501 | the same outcomes as a click at the cursor: rejected iff the piece cannot be played there; otherwise the flag is set and the timer restarted; a fitting piece is written, scanned, scored and the queue advances; one partly off the board faults with the partial writes of `playPiece` on the board and nothing else changed |
| Game.ClearCells | src/main/java/uk/ac/soton/comp1206/scene/ChallengeScene.java:175 | only the board changes: reported cells become 0 |
| Game.PlacedThenClearedHasNoFullLine | src/main/java/uk/ac/soton/comp1206/game/Game.java:416-417 | after a placement on a square board and the clearing it triggers, no full line remains |
| Game.Sweep | src/main/java/uk/ac/soton/comp1206/game/Game.java:447-468 | only markers on the swept stretch behind the cursor become 0 |
| Game.Move | src/main/java/uk/ac/soton/comp1206/game/Game.java:435-470 | an off-board target changes nothing; otherwise the cursor moves, its cell is marked if it held at most 0, every marker on the swept stretch becomes 0, and no other cell changes |
| Game.MoveCursor | src/main/java/uk/ac/soton/comp1206/game/Game.java:435-470 | the loops as written compute `Move` |
| Game.SweepRow | src/main/java/uk/ac/soton/comp1206/game/Game.java:448-457 | the row loop from the edge toward the cursor zeroes exactly the swept markers |
| Game.SweepColumn | src/main/java/uk/ac/soton/comp1206/game/Game.java:458-467 | the column loop zeroes exactly the swept markers |
| Game.StepKeepsOneMarker | src/main/java/uk/ac/soton/comp1206/game/Game.java:472-486 | after a W/A/S/D step the only marker on the board is under the cursor |
| Game.MoveKeepsColours | src/main/java/uk/ac/soton/comp1206/game/Game.java:443-466 | moving the cursor never changes a piece colour |
| Game.StartEstablishesInv | src/main/java/uk/ac/soton/comp1206/game/Game.java:389-397 | a new game satisfies the invariant: `int` values in range, level following score, coloured pieces, a paintable board with its marker under the cursor |
| Game.GameLoopKeepsInv | src/main/java/uk/ac/soton/comp1206/game/Game.java:206-219 | a tick keeps the invariant |
| Game.SwapKeepsInv | src/main/java/uk/ac/soton/comp1206/game/Game.java:366-375 | a swap keeps the invariant |
| Game.RotateKeepsInv | src/main/java/uk/ac/soton/comp1206/game/Game.java:233-249 | a rotation that keeps the piece's value keeps the invariant |
| Game.ScoreKeepsInv | src/main/java/uk/ac/soton/comp1206/game/Game.java:326-345 | scoring keeps the invariant |
| Game.ClickKeepsInv | src/main/java/uk/ac/soton/comp1206/game/Game.java:404-422 | a click, placed, rejected or faulted, keeps the invariant |
| Game.AcceptedPlacementKeepsPaint | src/main/java/uk/ac/soton/comp1206/component/GameBlock.java:26-44 | writing a coloured piece keeps every cell within the colour table, and leaves a marker only where one was |
| Game.ClearCellsKeepsInv | src/main/java/uk/ac/soton/comp1206/scene/ChallengeScene.java:175 | clearing reported cells keeps the invariant |
| Game.MoveKeepsInv | src/main/java/uk/ac/soton/comp1206/game/Game.java:472-486 | a keyboard step keeps the invariant |
| Scores.ParseLine | src/main/java/uk/ac/soton/comp1206/scene/ScoresScene.java:61-64 | fails with a missing score iff `split` gives fewer than two parts; otherwise it succeeds iff `parseInt` accepts the second part, and then the score is that value and the name the text before the first ':' |
| Scores.Record | src/main/java/uk/ac/soton/comp1206/scene/ScoresScene.java:108 | a written record is non-empty, contains ':', ends in a digit, and has no line terminator when the name has none |
| Scores.ParseRecord | src/main/java/uk/ac/soton/comp1206/scene/ScoresScene.java:61-64 | a record `name:score` parses back to (name, score) when the name has no ':' |
| Scores.ParseLines | src/main/java/uk/ac/soton/comp1206/scene/ScoresScene.java:60-66 | at most one entry per line, and the load completes iff every line gave one |
| Scores.ParseLinesReadsPrefix | src/main/java/uk/ac/soton/comp1206/scene/ScoresScene.java:60-66 | the entries are the parses of the leading lines in order, and a load that stops does so at a line that fails |
| Scores.ParseLinesAppend | tetrecs/src/main/java/uk/ac/soton/comp1206/scene/ScoresScene.java:69-75 | one more good line after a complete load adds its entry at the end |
| Scores.InsertPermutes | src/main/java/uk/ac/soton/comp1206/scene/ScoresScene.java:116-131 | inserting keeps every entry, adding exactly the new one |
| Scores.SortScoresPermutes | src/main/java/uk/ac/soton/comp1206/scene/ScoresScene.java:116-131 | sorting is a permutation |
| Scores.SortScoresIsStableSort | src/main/java/uk/ac/soton/comp1206/scene/ScoresScene.java:116-131 | the sorted list is non-increasing in score, and entries with equal scores keep their input order |
| Scores.StableSortUnique | tetrecs/src/main/java/uk/ac/soton/comp1206/scene/ScoresScene.java:125-140 | any non-increasing list with the same order within each score is the sort's result |
| Scores.LoadScores | src/main/java/uk/ac/soton/comp1206/scene/ScoresScene.java:52-70 | a missing file leaves the shown list and fails; otherwise it succeeds iff every line parses, giving a sorted permutation of the entries; a failed load leaves the entries read before the bad line |
| Scores.LoadForgetsShown | src/main/java/uk/ac/soton/comp1206/scene/ScoresScene.java:56 | the result does not depend on what was showing, and loading the same text again changes nothing |
| Scores.DefaultScoresText | src/main/java/uk/ac/soton/comp1206/scene/ScoresScene.java:93 | the default table is the text `Jhon:30\nSarah:20\nTim:40` |
| Scores.DefaultEntries | src/main/java/uk/ac/soton/comp1206/scene/ScoresScene.java:60-65 | the default table reads as Jhon 30, Sarah 20, Tim 40 |
| Scores.DefaultTable | src/main/java/uk/ac/soton/comp1206/scene/ScoresScene.java:52-70 | the default table loads as Tim 40, Jhon 30, Sarah 20 |
| Scores.AppendThenLoad | src/main/java/uk/ac/soton/comp1206/scene/ScoresScene.java:107-108 | an appended record is loaded with the old entries, in sorted order |
| Scores.TrailingNewlineBreaksTable | tetrecs/src/main/java/uk/ac/soton/comp1206/scene/ScoresScene.java:117 | a file ending in a newline loads, but once a record is appended it fails on the blank line |
| Scores.WriteScores | src/main/java/uk/ac/soton/comp1206/scene/ScoresScene.java:82-114 | a missing file gets the default table; otherwise the loaded list shows, and the file gains the fresh game's record iff the load succeeds and that score beats an entry or the best score is 0 |
| Scores.WriteScoresVariant | tetrecs/src/main/java/uk/ac/soton/comp1206/scene/ScoresScene.java:91-123 | the same, with the file gaining a record iff the load succeeds and the fresh score beats an entry |
| Scores.FreshScoreNeverRecorded | tetrecs/src/main/java/uk/ac/soton/comp1206/scene/ScoresScene.java:112-115 | with no negative score on file and a fresh score of 0, the earlier copy never writes a record |
| Scores.DefaultTableNeverGrows | src/main/java/uk/ac/soton/comp1206/scene/ScoresScene.java:103-106 | neither copy ever adds to the default table |
| Scores.ZeroTopRecordsZero | src/main/java/uk/ac/soton/comp1206/scene/ScoresScene.java:106 | when the best score on file is 0, the main copy appends a 0 record |
| Scores.WriteFinalScore | src/main/java/uk/ac/soton/comp1206/scene/ScoresScene.java:105-111 | the player's final score is appended iff the load succeeds and the score beats an entry; otherwise the file is unchanged |
| Scores.FinalScoreRecorded | src/main/java/uk/ac/soton/comp1206/scene/ScoresScene.java:105-111 | a recorded final score is in the next load, which succeeds and is sorted |
| Scores.DefaultTableTakesFifty | src/main/java/uk/ac/soton/comp1206/scene/ScoresScene.java:93-111 | a final 50 on the default table is appended and then loads first, ahead of Tim 40, Jhon 30, Sarah 20 |
| PieceBoard.ClearGrid | tetrecs/src/main/java/uk/ac/soton/comp1206/component/PieceBoard.java:37-43 | whatever the preview held, it ends all 0 |
| PieceBoard.AddPieceToGrid | tetrecs/src/main/java/uk/ac/soton/comp1206/component/PieceBoard.java:24-35 | the result depends only on the piece: the centre is 1; every other cell holds the piece value where the footprint is occupied and 0 elsewhere; it equals the piece played centred on an empty board |
| PieceBoard.CentreEntryHidden | tetrecs/src/main/java/uk/ac/soton/comp1206/component/PieceBoard.java:34 | pieces that differ only in the footprint's centre look the same |
| PieceBoard.ShownRevealsFootprint | tetrecs/src/main/java/uk/ac/soton/comp1206/component/PieceBoard.java:26-33 | for a non-zero value, the preview determines every off-centre footprint entry |

## Left out

- Timer and threads: `java.util.Timer` runs `gameLoop` on its own thread. A tick is modelled as one atomic event, and the timer only as `Running(delay)` or `Cancelled`.
- Sound and logging: they have no effect on the state.
- File I/O and dialogs: the score file is a value (`Missing` or `Present(text)`), and the name `enterName` asks for is a parameter. Reader and writer exceptions other than those from parsing are not modelled.
- `getHighScore` and the high-score check at the top of `score`: they read the score file, and the model's `score` always completes. In the code, a line without ':' in the file (such as the blank line of `Scores.TrailingNewlineBreaksTable`) makes `split(":")[1]` throw at src/main/java/uk/ac/soton/comp1206/game/Game.java:165-166, and an empty file makes `get(0)` throw at src/main/java/uk/ac/soton/comp1206/game/Game.java:174. Neither exception is caught. Each leaves `score`, `afterPiece` and `blockClicked` after the multiplier update, so nothing is scored, no cell is reported for clearing and no next piece is drawn.
- The UI: scenes, `GameBlock` painting, `ScoresList`, and the listeners' repainting. Only the board listener's zeroing is kept, as `Board.Zero`.
- `GamePiece`: it is not part of this model. Pieces come from a `catalog` parameter, and rotation is a `turn` parameter. No rotation identity is claimed.
- Randomness: `rand.nextInt(15)` becomes a `draw` parameter in 0..14.
- `tetrecs/.../game/Game.java`: a stale copy that calls an `afterPiece` no grid provides. The main `Game.java` is modelled instead.
- The level is a `double` in the source, but it only ever holds whole numbers, so it is modelled as `int`.
- Names that contain ':' or a line terminator: they break the file format. The round-trip lemmas require such names to be absent.
- The order and multiplicity of listener calls: each call zeroes a cell and zeroing twice is zeroing once, so only the set of cells is kept. The earlier grid's emptying of its two local lists after reporting has no lasting effect and is not modelled.
- `Game.GameLoop`: states the decrement of lives only above the smallest `int`; below it the body wraps as Java does.
- `Game.AfterPiece`: states the +1 of the multiplier only below the largest `int`; at the limit the body wraps.
- `Game.AfterPieceVariant`: likewise states the +1 of the multiplier only below the largest `int`; at the limit the body wraps.
- `Game.ClearingScores`: stated only when the score stays below the largest `int`, where no wrap-around happens.
- `Game.VariantOverScores`: stated only for scores up to 1000000 and multipliers up to 1000, so that no product wraps.
- `Game.GameLoop`: can be applied to a game whose timer is cancelled. In the code no tick comes after `timer.cancel()` until a placement restarts the timer; the lemmas about ticks do not rely on such ticks.
- `JavaInt.ParseInt`: accepts only the ASCII digits 0-9, whereas `Integer.parseInt` accepts any Unicode decimal digit. The file the game writes holds only ASCII digits.
- `Game.TicksCountDownLives`: stated only while lives remain, so that no tick signals game over.
- `LineClear.ScanFindsFilledLines` and `LineClear.ClearLeavesNoFullLine`: stated only for square boards, where the transposed scan reads whole lines. The game always uses 5x5.

## Findings

| source | as written | input that shows it | evidently intended | confidence | as-written member | corrected member |
|---|---|---|---|---|---|---|
| tetrecs/src/main/java/uk/ac/soton/comp1206/game/Grid.java:202-203 | blocks = length of the coordinate list, lines = length / 5 | 5x5 board with row 0 and column 0 full: 10 blocks for 9 distinct cells; on a 3x3 board one full row gives 0 lines | blocks = distinct cleared cells, lines = full rows + full columns | not executed | LineClearVariant.RowAndColumnCountTwice, LineClearVariant.ThreeColumnsMiscount | LineClear.Scan, with LineClear.FiveByFiveCounts |
| tetrecs/src/main/java/uk/ac/soton/comp1206/scene/ScoresScene.java:112-115 | compares the score of a freshly constructed `Game`: 0 with the main `Game`, which this model uses; the earlier tree's static score, carried over between games, is not modelled | the default table `Jhon:30\nSarah:20\nTim:40` after any game: nothing is ever appended | append the player's final score when it beats an entry | not executed | Scores.FreshScoreNeverRecorded, Scores.DefaultTableNeverGrows | Scores.WriteFinalScore, with Scores.FinalScoreRecorded and Scores.DefaultTableTakesFifty |
| src/main/java/uk/ac/soton/comp1206/scene/ScoresScene.java:103-108 | records the fresh game's 0 when the best score on file is 0 | file `A:0`: a record `name:0` is appended whatever the player scored | append the player's final score when it beats an entry | not executed | Scores.ZeroTopRecordsZero | Scores.WriteFinalScore, with Scores.FinalScoreRecorded |

=== FILE: board.dfy ===
/** The game board: a fixed number of columns and rows of integer cells,
    addressed as `cells[x][y]` with `x` the column and `y` the row. */
module Board {

  /** An empty cell. */
  const EMPTY: int := 0
  /** The transient keyboard-cursor marker. */
  const CURSOR: int := 16
  /** What a read outside the board yields. */
  const OFF_BOARD: int := -1
  /** Number of entries of the block colour table; a cell value is painted
      by indexing that table directly. */
  const COLOUR_COUNT: int := 17

  /** Piece colours are 1..15. */
  predicate IsColour(v: int) {
    1 <= v <= 15
  }

  /** A value the colour table can paint: empty, a colour or the cursor. */
  predicate Paintable(v: int) {
    0 <= v < COLOUR_COUNT
  }

  datatype Cells = Cells(cols: nat, rows: nat, cells: seq<seq<int>>)

  predicate WellFormed(c: Cells) {
    |c.cells| == c.cols && forall x :: 0 <= x < |c.cells| ==> |c.cells[x]| == c.rows
  }

  type Grid = c: Cells | WellFormed(c) witness Cells(0, 0, [])

  predicate InBounds(g: Grid, x: int, y: int) {
    0 <= x < g.cols && 0 <= y < g.rows
  }

  predicate SameShape(g: Grid, h: Grid) {
    g.cols == h.cols && g.rows == h.rows
  }

  /** A freshly constructed board: every cell empty. */
  function New(cols: nat, rows: nat): (g: Grid)
    ensures g.cols == cols && g.rows == rows
    ensures forall x, y :: InBounds(g, x, y) ==> g.cells[x][y] == EMPTY
  {
    Cells(cols, rows, seq(cols, _ => seq(rows, _ => EMPTY)))
  }

  /** Reading a cell: the stored value on the board, -1 anywhere else (the
      array-index exception is caught). */
  function Get(g: Grid, x: int, y: int): (v: int)
    ensures InBounds(g, x, y) ==> v == g.cells[x][y]
    ensures !InBounds(g, x, y) ==> v == OFF_BOARD
  {
    if InBounds(g, x, y) then g.cells[x][y] else OFF_BOARD
  }

  /** Writing a cell. The write is unguarded: off the board it throws, so
      callers must stay on the board. */
  function Set(g: Grid, x: int, y: int, v: int): (r: Grid)
    requires InBounds(g, x, y)
    ensures SameShape(r, g)
    ensures r.cells[x][y] == v
    ensures forall a, b :: InBounds(g, a, b) && (a != x || b != y) ==> r.cells[a][b] == g.cells[a][b]
  {
    g.(cells := g.cells[x := g.cells[x][y := v]])
  }

  /** `get` after `set` sees the written value at the written cell and the
      old value everywhere else, on and off the board. */
  lemma GetAfterSet(g: Grid, x: int, y: int, v: int, a: int, b: int)
    requires InBounds(g, x, y)
    ensures Get(Set(g, x, y, v), a, b) == if a == x && b == y then v else Get(g, a, b)
  {
  }

  /** Two boards of the same shape that agree on every cell are equal. */
  lemma Extensionality(g: Grid, h: Grid)
    requires SameShape(g, h)
    requires forall a, b :: InBounds(g, a, b) ==> g.cells[a][b] == h.cells[a][b]
    ensures g == h
  {
    forall a | 0 <= a < g.cols
      ensures g.cells[a] == h.cells[a]
    {
      assert forall b :: 0 <= b < g.rows ==> g.cells[a][b] == h.cells[a][b];
    }
  }

  /** Zeroing a set of cells, as the board does for every cell a line clear
      reports; coordinates off the board are ignored. */
  function Zero(g: Grid, cleared: set<(int, int)>): (r: Grid)
    ensures SameShape(r, g)
    ensures forall a, b :: InBounds(g, a, b) ==>
      r.cells[a][b] == if (a, b) in cleared then EMPTY else g.cells[a][b]
  {
    Cells(g.cols, g.rows,
      seq(g.cols, a requires 0 <= a < g.cols =>
        seq(g.rows, b requires 0 <= b < g.rows =>
          if (a, b) in cleared then EMPTY else g.cells[a][b])))
  }

  /** Every cell can be painted. */
  ghost predicate AllPaintable(g: Grid) {
    forall x, y :: InBounds(g, x, y) ==> Paintable(g.cells[x][y])
  }
}

=== FILE: cell_count.dfy ===
/** Counting the cells a line clear reports: full lines of a
    `rows` x `cols` board, with each crossing of a full row and a full column
    held once. */
module CellCount {

  /** Every member of `s` is an index below `n`. */
  predicate Below(s: set<int>, n: int) {
    forall k :: k in s ==> 0 <= k < n
  }

  /** The set of pairs collected for clearing: `(r, c)` for every full `r`
      and every `c` below the column count, then for every full `c` and every
      `r` below the row count. Being a set, a shared cell is held once. */
  function Cleared(fullRows: set<int>, fullCols: set<int>, rows: nat, cols: nat): set<(int, int)> {
    (set r, c | r in fullRows && 0 <= c < cols :: (r, c))
    + (set r, c | c in fullCols && 0 <= r < rows :: (r, c))
  }

  /** How many of the indices below `n` belong to `s`. */
  function Crossings(s: set<int>, n: nat): nat {
    if n == 0 then 0 else Crossings(s, n - 1) + if n - 1 in s then 1 else 0
  }

  lemma {:induction false} CrossingsAgree(s: set<int>, t: set<int>, n: nat)
    requires forall k :: 0 <= k < n ==> (k in s <==> k in t)
    ensures Crossings(s, n) == Crossings(t, n)
  {
    if n > 0 {
      CrossingsAgree(s, t, n - 1);
    }
  }

  /** When every member lies below `n`, counting the indices below `n` counts
      the whole set. */
  lemma {:induction false} CrossingsAll(s: set<int>, n: nat)
    requires Below(s, n)
    ensures Crossings(s, n) == |s|
  {
    if n == 0 {
      assert forall k :: k !in s;
      assert s == {};
    } else {
      var t := s - {n - 1};
      CrossingsAll(t, n - 1);
      CrossingsAgree(s, t, n - 1);
    }
  }

  /** The cells `(k, c)` with `c` below `m` that scan row `k` hands over:
      all of them when the row is full, otherwise those in full columns. */
  function RowCells(k: int, m: nat, full: bool, fullCols: set<int>): set<(int, int)> {
    if m == 0 then {}
    else RowCells(k, m - 1, full, fullCols) + if full || m - 1 in fullCols then {(k, m - 1)} else {}
  }

  lemma {:induction false} RowCellsMembers(k: int, m: nat, full: bool, fullCols: set<int>)
    ensures forall r, c :: (r, c) in RowCells(k, m, full, fullCols) <==>
      (r == k && 0 <= c < m && (full || c in fullCols))
  {
    if m > 0 {
      RowCellsMembers(k, m - 1, full, fullCols);
    }
  }

  lemma {:induction false} RowCellsSize(k: int, m: nat, full: bool, fullCols: set<int>)
    ensures |RowCells(k, m, full, fullCols)| == if full then m else Crossings(fullCols, m)
  {
    if m == 0 {
      assert RowCells(k, 0, full, fullCols) == {};
    } else {
      RowCellsSize(k, m - 1, full, fullCols);
      RowCellsStep(k, m, full, fullCols);
    }
  }

  /** Extending a row by one cell adds one to its size exactly when that
      cell is handed over. */
  lemma RowCellsStep(k: int, m: nat, full: bool, fullCols: set<int>)
    requires m > 0
    ensures |RowCells(k, m, full, fullCols)|
      == |RowCells(k, m - 1, full, fullCols)| + if full || m - 1 in fullCols then 1 else 0
  {
    if full || m - 1 in fullCols {
      RowCellsBelow(k, m - 1, full, fullCols, m - 1);
      AddFresh(RowCells(k, m - 1, full, fullCols), (k, m - 1));
    }
  }

  lemma AddFresh<T>(s: set<T>, e: T)
    requires e !in s
    ensures |s + {e}| == |s| + 1
  {
  }

  /** The first `m` cells of a row stop before column `m`. */
  lemma {:induction false} RowCellsBelow(k: int, m: nat, full: bool, fullCols: set<int>, c: int)
    requires c >= m
    ensures (k, c) !in RowCells(k, m, full, fullCols)
  {
    if m > 0 {
      RowCellsBelow(k, m - 1, full, fullCols, c);
    }
  }

  /** The cleared cells among the first `n` scan rows, one row at a time. */
  function Band(fullRows: set<int>, fullCols: set<int>, n: nat, cols: nat): set<(int, int)> {
    if n == 0 then {}
    else Band(fullRows, fullCols, n - 1, cols) + RowCells(n - 1, cols, n - 1 in fullRows, fullCols)
  }

  lemma {:induction false} BandMembers(fullRows: set<int>, fullCols: set<int>, n: nat, cols: nat)
    ensures forall r, c :: (r, c) in Band(fullRows, fullCols, n, cols) <==>
      (0 <= r < n && 0 <= c < cols && (r in fullRows || c in fullCols))
  {
    if n > 0 {
      BandMembers(fullRows, fullCols, n - 1, cols);
      RowCellsMembers(n - 1, cols, n - 1 in fullRows, fullCols);
    }
  }

  lemma BandDisjoint(fullRows: set<int>, fullCols: set<int>, n: nat, cols: nat)
    requires n > 0
    ensures Band(fullRows, fullCols, n - 1, cols) !! RowCells(n - 1, cols, n - 1 in fullRows, fullCols)
  {
    BandMembers(fullRows, fullCols, n - 1, cols);
    RowCellsMembers(n - 1, cols, n - 1 in fullRows, fullCols);
    var row := RowCells(n - 1, cols, n - 1 in fullRows, fullCols);
    forall p | p in row
      ensures p !in Band(fullRows, fullCols, n - 1, cols)
    {
      var (r, c) := p;
      assert (r, c) in row;
    }
  }

  /** How many cells `Band` holds, counted row by row. */
  function BandCount(fullRows: set<int>, fullCols: set<int>, n: nat, cols: nat): nat {
    if n == 0 then 0
    else BandCount(fullRows, fullCols, n - 1, cols) + if n - 1 in fullRows then cols else |fullCols|
  }

  /** The band's cardinality agrees with the row-by-row count. */
  predicate BandCounted(fullRows: set<int>, fullCols: set<int>, n: nat, cols: nat) {
    |Band(fullRows, fullCols, n, cols)| == BandCount(fullRows, fullCols, n, cols)
  }

  lemma {:induction false} BandSize(fullRows: set<int>, fullCols: set<int>, n: nat, cols: nat)
    requires Below(fullCols, cols)
    ensures BandCounted(fullRows, fullCols, n, cols)
  {
    if n > 0 {
      BandSize(fullRows, fullCols, n - 1, cols);
      BandStep(fullRows, fullCols, n, cols);
    }
  }

  /** Scan row `n - 1` adds all its cells when it is full, and one cell per
      full column otherwise, so the count carries over from `n - 1` rows
      to `n`. */
  lemma BandStep(fullRows: set<int>, fullCols: set<int>, n: nat, cols: nat)
    requires n > 0 && Below(fullCols, cols)
    requires BandCounted(fullRows, fullCols, n - 1, cols)
    ensures BandCounted(fullRows, fullCols, n, cols)
  {
    BandDisjoint(fullRows, fullCols, n, cols);
    RowCellsSize(n - 1, cols, n - 1 in fullRows, fullCols);
    CrossingsAll(fullCols, cols);
    DisjointUnion(Band(fullRows, fullCols, n - 1, cols), RowCells(n - 1, cols, n - 1 in fullRows, fullCols));
  }

  lemma DisjointUnion<T>(a: set<T>, b: set<T>)
    requires a !! b
    ensures |a + b| == |a| + |b|
  {
  }

  /** The row-by-row count in closed form: full rows times columns, plus
      full columns times rows, less the crossings. */
  lemma {:induction false} BandCountClosed(fullRows: set<int>, fullCols: set<int>, n: nat, cols: nat)
    ensures BandCount(fullRows, fullCols, n, cols)
      == Crossings(fullRows, n) * cols + |fullCols| * n - Crossings(fullRows, n) * |fullCols|
  {
    if n > 0 {
      BandCountClosed(fullRows, fullCols, n - 1, cols);
      var a, k := Crossings(fullRows, n - 1), |fullCols|;
      if n - 1 in fullRows {
        FullRowStep(a, cols, k, n);
      } else {
        OtherRowStep(a, cols, k, n);
      }
    }
  }

  /** Closed-form step for a full scan row: one more crossing row, `cols`
      more cells. */
  lemma FullRowStep(a: int, cols: int, k: int, n: int)
    ensures (a * cols + k * (n - 1) - a * k) + cols == (a + 1) * cols + k * n - (a + 1) * k
  {
    assert (a + 1) * cols == a * cols + cols;
    assert (a + 1) * k == a * k + k;
    assert k * n == k * (n - 1) + k;
  }

  /** Closed-form step for any other scan row: `k` more cells, one per full
      column. */
  lemma OtherRowStep(a: int, cols: int, k: int, n: int)
    ensures (a * cols + k * (n - 1) - a * k) + k == a * cols + k * n - a * k
  {
    assert k * n == k * (n - 1) + k;
  }

  lemma ClearedIsBand(fullRows: set<int>, fullCols: set<int>, rows: nat, cols: nat)
    requires Below(fullRows, rows) && Below(fullCols, cols)
    ensures Cleared(fullRows, fullCols, rows, cols) == Band(fullRows, fullCols, rows, cols)
  {
    BandMembers(fullRows, fullCols, rows, cols);
    forall r, c ensures (r, c) in Cleared(fullRows, fullCols, rows, cols) <==> (r, c) in Band(fullRows, fullCols, rows, cols) {
    }
    forall p | p in Band(fullRows, fullCols, rows, cols) ensures p in Cleared(fullRows, fullCols, rows, cols) {
      assert (p.0, p.1) in Band(fullRows, fullCols, rows, cols);
    }
  }

  /** Distinct cleared cells: each full scan row contributes `cols` cells,
      each full scan column `rows` cells, and every crossing is counted once. */
  lemma ClearedSize(fullRows: set<int>, fullCols: set<int>, rows: nat, cols: nat)
    requires Below(fullRows, rows) && Below(fullCols, cols)
    ensures |Cleared(fullRows, fullCols, rows, cols)|
      == |fullRows| * cols + |fullCols| * rows - |fullRows| * |fullCols|
  {
    ClearedIsBand(fullRows, fullCols, rows, cols);
    BandSize(fullRows, fullCols, rows, cols);
    BandCountClosed(fullRows, fullCols, rows, cols);
    CrossingsAll(fullRows, rows);
  }
}

=== FILE: game.dfy ===
/** The game engine: score, level, lives, multiplier, the current and the
    following piece, the keyboard cursor and the penalty timer, driven by
    clicks, key presses and timer ticks. Sound, logging and the listeners
    that repaint the screen carry no state and are not modelled; random
    draws arrive as parameters. */
module Game {
  import opened JavaInt
  import opened Board
  import opened Pieces
  import opened Placement
  import opened CellCount
  import opened LineClear
  import opened LineClearVariant

  const START_LIVES: int := 3
  /** Points per level. */
  const LEVEL_POINTS: int := 1000
  /** Timer delay at level 0, in milliseconds. */
  const SLOWEST_DELAY: int := 12000
  /** The delay never drops below this. */
  const FASTEST_DELAY: int := 2500
  /** How much faster the timer fires per level. */
  const DELAY_STEP: int := 500

  /** The penalty timer: cancelled, or firing a tick every `delay` ms. */
  datatype Timer = Cancelled | Running(delay: int)

  /** Everything a game keeps between events. `accepted` is the public flag
      set by the last click or Enter: whether the piece was placed. */
  datatype GameState = GameState(
    score: int,
    level: int,
    lives: int,
    multiplier: int,
    current: GamePiece,
    following: GamePiece,
    cursorX: int,
    cursorY: int,
    grid: Grid,
    accepted: bool,
    timer: Timer)

  // ---------------------------------------------------------------------
  // Level and timer

  /** `updateLevel`: the score divided by 1000, multiplied by 1000 and
      divided by 1000 again, all in `int`, then floored. */
  function Level(score: int): (level: int)
    ensures level == Div(score, LEVEL_POINTS)
    ensures score >= 0 ==> 0 <= level && level * LEVEL_POINTS <= score < level * LEVEL_POINTS + LEVEL_POINTS
    ensures score <= 0 ==> level <= 0 && level * LEVEL_POINTS - LEVEL_POINTS < score <= level * LEVEL_POINTS
  {
    var q := Div(score, LEVEL_POINTS);
    assert Div(q * LEVEL_POINTS, LEVEL_POINTS) == q;
    Div(q * LEVEL_POINTS, LEVEL_POINTS)
  }

  /** `getTimerDelay`: 12 s at level 0, half a second less per level, never
      below 2.5 s. */
  function TimerDelay(level: int): (delay: int)
    ensures delay >= FASTEST_DELAY && delay >= SLOWEST_DELAY - DELAY_STEP * level
    ensures delay == FASTEST_DELAY || delay == SLOWEST_DELAY - DELAY_STEP * level
  {
    if SLOWEST_DELAY - DELAY_STEP * level > FASTEST_DELAY then SLOWEST_DELAY - DELAY_STEP * level
    else FASTEST_DELAY
  }

  /** A higher level never slows the timer down. */
  lemma DelayShrinksWithLevel(a: int, b: int)
    requires a <= b
    ensures TimerDelay(b) <= TimerDelay(a)
  {
  }

  /** The delay bottoms out from level 19 on. */
  lemma DelayFloor(level: int)
    ensures TimerDelay(level) == FASTEST_DELAY <==> level >= 19
  {
  }

  // ---------------------------------------------------------------------
  // Scoring

  /** Two values an `int` cannot tell apart: they differ by a multiple of
      2^32. */
  predicate Congruent(a: int, b: int) {
    (a - b) % TWO_32 == 0
  }

  lemma CongruentSum(a: int, b: int, c: int, d: int)
    requires Congruent(a, b) && Congruent(c, d)
    ensures Congruent(a + c, b + d)
  {
    var k, m := (a - b) / TWO_32, (c - d) / TWO_32;
    assert a - b == TWO_32 * k;
    assert c - d == TWO_32 * m;
    assert (a + c) - (b + d) == TWO_32 * (k + m);
  }

  /** `score(blocks, lines)`: the update is lines x blocks x 10 x multiplier
      in `int`; a zero update changes nothing, any other is added to the
      score (again in `int`) and the level recomputed. Wrapping each
      product in turn gives the same `int` as wrapping the exact product
      once. */
  function Score(s: GameState, blocks: int, lines: int): (r: GameState)
    ensures r.(score := s.score, level := s.level) == s
    ensures Congruent(r.score, s.score + lines * blocks * 10 * s.multiplier)
    ensures r == s || r.level == Level(r.score)
    ensures IsInt32(r.score) || r == s
  {
    var gain := lines * blocks * 10 * s.multiplier;
    var update := Wrap(gain);
    CongruentSum(s.score, s.score, update, gain);
    if update == 0 then s
    else
      var total := Wrap(s.score + update);
      CongruentTrans(total, s.score + update, s.score + gain);
      s.(score := total, level := Level(total))
  }

  lemma CongruentTrans(a: int, b: int, c: int)
    requires Congruent(a, b) && Congruent(b, c)
    ensures Congruent(a, c)
  {
    var k, m := (a - b) / TWO_32, (b - c) / TWO_32;
    assert a - b == TWO_32 * k;
    assert b - c == TWO_32 * m;
    assert a - c == TWO_32 * (k + m);
  }

  /** Without overflow the score grows by exactly the update, and nothing
      is added when no line was cleared. */
  lemma ScoreExact(s: GameState, blocks: int, lines: int)
    requires IsInt32(lines * blocks * 10 * s.multiplier)
    requires IsInt32(s.score + lines * blocks * 10 * s.multiplier)
    ensures Score(s, blocks, lines).score == s.score + lines * blocks * 10 * s.multiplier
    ensures lines * blocks * 10 * s.multiplier != 0 ==>
      Score(s, blocks, lines).level == Level(Score(s, blocks, lines).score)
    ensures lines == 0 ==> Score(s, blocks, lines) == s
  {
  }

  /** The result of `afterPiece`: the game after scoring, and the cells the
      board is asked to zero. */
  datatype Settled = Settled(state: GameState, cleared: set<(int, int)>)

  /** `afterPiece` on the game: the multiplier goes up by one when a line
      was found and back to zero otherwise, then `score` runs on the scan's
      counts. The board is not yet changed. */
  function AfterPiece(s: GameState): (r: Settled)
    ensures r.cleared == Scan(s.grid).cells
    ensures r.state.grid == s.grid && r.state.current == s.current && r.state.following == s.following
    ensures r.state.lives == s.lives && r.state.timer == s.timer
    ensures Scan(s.grid).lines == 0 ==> r.state == s.(multiplier := 0)
    ensures Scan(s.grid).lines > 0 && 0 <= s.multiplier < INT_MAX ==> r.state.multiplier == s.multiplier + 1
    ensures r.state.(score := s.score, level := s.level, multiplier := s.multiplier) == s
    ensures Scan(s.grid).lines > 0 ==>
      Congruent(r.state.score, s.score + Scan(s.grid).lines * Scan(s.grid).blocks * 10 * r.state.multiplier)
    ensures r.state.score == s.score || r.state.level == Level(r.state.score)
    ensures r.state.score == s.score || IsInt32(r.state.score)
  {
    var scan := Scan(s.grid);
    var multiplier := if scan.lines > 0 then Wrap(s.multiplier + 1) else 0;
    var scored := Score(s.(multiplier := multiplier), scan.blocks, scan.lines);
    assert scored.multiplier == multiplier;
    Settled(scored, scan.cells)
  }

  /** On a square board, a scan that finds a line reports cells to clear. */
  lemma LineHasCells(g: Grid)
    requires g.cols == g.rows && Scan(g).lines > 0
    ensures Scan(g).blocks > 0
  {
    if |FullRows(g)| > 0 {
      var r :| r in FullRows(g);
      assert (r, 0) in Scan(g).cells;
    } else {
      var c :| c in FullCols(g);
      assert (0, c) in Scan(g).cells;
    }
  }

  /** A placement that completes a line on a square board always scores:
      the multiplier is at least one and the cleared cells are counted. */
  lemma ClearingScores(s: GameState)
    requires s.grid.cols == s.grid.rows
    requires 0 <= s.score <= INT_MAX && 0 <= s.multiplier < INT_MAX
    requires Scan(s.grid).lines > 0
    requires s.score + Scan(s.grid).lines * Scan(s.grid).blocks * 10 * (s.multiplier + 1) <= INT_MAX
    ensures AfterPiece(s).state.score
      == s.score + Scan(s.grid).lines * Scan(s.grid).blocks * 10 * (s.multiplier + 1)
    ensures AfterPiece(s).state.score > s.score
  {
    var scan := Scan(s.grid);
    var m := s.multiplier + 1;
    LineHasCells(s.grid);
    PositiveProduct(scan.lines, scan.blocks, m);
    ScoreExact(s.(multiplier := m), scan.blocks, scan.lines);
  }

  lemma PositiveProduct(lines: int, blocks: int, m: int)
    requires lines > 0 && blocks > 0 && m > 0
    ensures lines * blocks * 10 * m > 0
  {
    assert lines * blocks > 0;
    assert lines * blocks * 10 > 0;
  }

  /** `afterPiece` of the variant grid on the same game: the multiplier
      follows whether any coordinate was listed, and `score` runs on the
      variant's counts. */
  function AfterPieceVariant(s: GameState): (r: Settled)
    ensures r.cleared == set p | p in ScanVariant(s.grid).coords
    ensures r.state.grid == s.grid && r.state.current == s.current && r.state.following == s.following
    ensures ScanVariant(s.grid).coords == [] ==> r.state == s.(multiplier := 0)
    ensures r.state.(score := s.score, level := s.level, multiplier := s.multiplier) == s
    ensures r.state.lives == s.lives && r.state.timer == s.timer
    ensures |ScanVariant(s.grid).coords| > 0 && 0 <= s.multiplier < INT_MAX ==>
      r.state.multiplier == s.multiplier + 1
    ensures |ScanVariant(s.grid).coords| > 0 ==>
      Congruent(r.state.score,
        s.score + ScanVariant(s.grid).lines * ScanVariant(s.grid).blocks * 10 * r.state.multiplier)
    ensures r.state.score == s.score || r.state.level == Level(r.state.score)
    ensures r.state.score == s.score || IsInt32(r.state.score)
  {
    var report := ScanVariant(s.grid);
    var multiplier := if |report.coords| > 0 then Wrap(s.multiplier + 1) else 0;
    var scored := Score(s.(multiplier := multiplier), report.blocks, report.lines);
    assert scored.multiplier == multiplier;
    Settled(scored, set p | p in report.coords)
  }

  /** The two 5x5 counts side by side when a full row meets a full
      column. */
  lemma VariantCounts(g: Grid)
    requires g.cols == 5 && g.rows == 5
    requires |FullRows(g)| >= 1 && |FullCols(g)| >= 1
    ensures ScanVariant(g).lines == Scan(g).lines
    ensures 2 <= Scan(g).lines <= 10 && 9 <= Scan(g).blocks <= 25
    ensures Scan(g).blocks < ScanVariant(g).blocks <= 50
  {
    FiveByFiveVariant(g);
    var R, C := |FullRows(g)|, |FullCols(g)|;
    CrossingsAll(FullRows(g), 5);
    CrossingsAll(FullCols(g), 5);
    CrossingsAtMost(FullRows(g), 5);
    CrossingsAtMost(FullCols(g), 5);
    SmallCounts(R, C);
  }

  /** Cell counts for `r` full rows and `c` full columns of the 5x5
      board. */
  lemma SmallCounts(r: int, c: int)
    requires 1 <= r <= 5 && 1 <= c <= 5
    ensures 9 <= r * 5 + c * 5 - r * c <= 25
    ensures 1 <= r * c && r * 5 + c * 5 <= 50
  {
    if r == 1 {
    } else if r == 2 {
    } else if r == 3 {
    } else if r == 4 {
    } else {
    }
  }

  lemma {:induction false} CrossingsAtMost(s: set<int>, n: nat)
    ensures Crossings(s, n) <= n
  {
    if n > 0 {
      CrossingsAtMost(s, n - 1);
    }
  }

  /** `a * c <= b * c` for `a <= b` and `c >= 0`, strictly when `a < b` and
      `c > 0`. */
  lemma {:induction false} MulMono(a: int, b: int, c: int)
    requires a <= b && c >= 0
    ensures a * c <= b * c
    ensures a < b && c > 0 ==> a * c < b * c
  {
    if c > 0 {
      MulMono(a, b, c - 1);
      assert a * c == a * (c - 1) + a;
      assert b * c == b * (c - 1) + b;
    }
  }

  /** The products the two grids score with, and that neither overflows. */
  lemma VariantProducts(lines: int, blocks: int, more: int, m: int)
    requires 1 <= lines <= 10 && 0 <= blocks < more <= 50 && 1 <= m <= 1001
    ensures 0 <= lines * blocks * 10 * m < lines * more * 10 * m <= 5005000
  {
    MulMono(blocks, more, lines);
    MulMono(0, blocks, lines);
    MulMono(lines, 10, more);
    var x, y := lines * blocks, lines * more;
    assert 0 <= x < y <= 500;
    MulMono(x * 10, y * 10, m);
    MulMono(0, x * 10, m);
    MulMono(y * 10, 5000, m);
  }

  /** On the 5x5 board the two grids hand the same cells to the board. */
  lemma VariantClearsSameCells(s: GameState)
    requires s.grid.cols == 5 && s.grid.rows == 5
    ensures AfterPieceVariant(s).cleared == AfterPiece(s).cleared
  {
    SameCellsOnSquareBoard(s.grid);
    var listed := ScanVariant(s.grid).coords;
    forall p ensures p in AfterPieceVariant(s).cleared <==> p in AfterPiece(s).cleared {
      var (a, b) := p;
      assert (a, b) in listed <==> (a, b) in Scan(s.grid).cells;
    }
  }

  /** On the 5x5 board, when a full row meets a full column the variant
      scores more for the same placement. */
  lemma VariantOverScores(s: GameState)
    requires s.grid.cols == 5 && s.grid.rows == 5
    requires 0 <= s.score <= 1000000 && 0 <= s.multiplier <= 1000
    requires |FullRows(s.grid)| >= 1 && |FullCols(s.grid)| >= 1
    ensures AfterPieceVariant(s).state.score > AfterPiece(s).state.score
  {
    var g := s.grid;
    VariantCounts(g);
    var src, vrt := Scan(g), ScanVariant(g);
    var m := s.multiplier + 1;
    var t := s.(multiplier := m);
    assert AfterPiece(s).state == Score(t, src.blocks, src.lines);
    assert AfterPieceVariant(s).state == Score(t, vrt.blocks, vrt.lines);
    VariantProducts(src.lines, src.blocks, vrt.blocks, m);
    ScoreExact(t, src.blocks, src.lines);
    ScoreExact(t, vrt.blocks, vrt.lines);
  }

  // ---------------------------------------------------------------------
  // Pieces and timer ticks

  /** `nextPiece`: the following piece becomes current and a new one, of
      kind `draw`, follows. */
  function NextPiece(s: GameState, catalog: Catalog, draw: int): (r: GameState)
    requires 0 <= draw < KINDS
    ensures r.current == s.following && r.following == catalog[draw]
    ensures r.(current := s.current, following := s.following) == s
  {
    s.(current := s.following, following := catalog[draw])
  }

  /** `swapCurrentPiece`: exchange the current and the following piece. */
  function Swap(s: GameState): (r: GameState)
    ensures r.current == s.following && r.following == s.current
    ensures r.(current := s.current, following := s.following) == s
  {
    s.(current := s.following, following := s.current)
  }

  /** Swapping twice restores the game. */
  lemma SwapTwice(s: GameState)
    ensures Swap(Swap(s)) == s
  {
  }

  /** `rotateCurrentPiece` / `rotateCurrentPieceLeft`: the current piece is
      replaced by its turned form; `turn` stands for the piece's own
      rotation, which is not modelled. */
  function Rotate(s: GameState, turn: GamePiece -> GamePiece): (r: GameState)
    ensures r.current == turn(s.current)
    ensures r.(current := s.current) == s
  {
    s.(current := turn(s.current))
  }

  /** What a timer tick leaves behind, and whether it signalled game over. */
  datatype Tick = Tick(state: GameState, gameOver: bool)

  /** `gameLoop`, run by the timer: with no lives left the timer is
      cancelled and game over signalled; in every case the multiplier is set
      to 1, a life is taken and the next piece comes up. */
  function GameLoop(s: GameState, catalog: Catalog, draw: int): (t: Tick)
    requires 0 <= draw < KINDS
    ensures t.gameOver <==> s.lives == 0
    ensures t.state.timer == Cancelled || t.state.timer == s.timer
    ensures !t.gameOver ==> t.state.timer == s.timer
    ensures t.state.multiplier == 1
    ensures INT_MIN < s.lives <= INT_MAX ==> t.state.lives == s.lives - 1
    ensures t.state.current == s.following && t.state.following == catalog[draw]
    ensures t.state.score == s.score && t.state.level == s.level && t.state.grid == s.grid
    ensures t.state.cursorX == s.cursorX && t.state.cursorY == s.cursorY && t.state.accepted == s.accepted
  {
    var over := s.lives == 0;
    var stopped := if over then s.(timer := Cancelled) else s;
    var penalised := stopped.(multiplier := 1, lives := Wrap(s.lives - 1));
    Tick(NextPiece(penalised, catalog, draw), over)
  }

  /** Game over is signalled once: the tick that signals it leaves -1
      lives and a cancelled timer. A rejected click leaves the timer
      cancelled, so no tick follows; an accepted one restarts it, and the
      tick after that does not signal game over again. */
  lemma GameOverSignalledOnce(s: GameState, catalog: Catalog, d1: int, x: int, y: int, d2: int, d3: int)
    requires 0 <= d1 < KINDS && 0 <= d2 < KINDS && 0 <= d3 < KINDS
    requires s.lives == 0
    ensures GameLoop(s, catalog, d1).gameOver
    ensures GameLoop(s, catalog, d1).state.lives == -1
    ensures GameLoop(s, catalog, d1).state.timer == Cancelled
    ensures var o := Click(GameLoop(s, catalog, d1).state, x, y, catalog, d2);
      o.Rejected? ==> o.state.timer == Cancelled
    ensures var o := Click(GameLoop(s, catalog, d1).state, x, y, catalog, d2);
      !o.Rejected? ==> o.state.timer.Running? && !GameLoop(o.state, catalog, d3).gameOver
  {
  }

  /** From `n` lives, the first `n` ticks each take a life and leave the
      timer running, so the game-over signal comes on tick `n + 1`. */
  lemma {:induction false} TicksCountDownLives(s: GameState, catalog: Catalog, draws: seq<int>)
    requires forall i :: 0 <= i < |draws| ==> 0 <= draws[i] < KINDS
    requires 0 <= s.lives <= INT_MAX && |draws| <= s.lives
    ensures Ticks(s, catalog, draws).lives == s.lives - |draws|
    ensures Ticks(s, catalog, draws).timer == s.timer
    ensures Ticks(s, catalog, draws).score == s.score
    decreases |draws|
  {
    if |draws| > 0 {
      TicksCountDownLives(s, catalog, draws[..|draws| - 1]);
    }
  }

  /** Running the timer `|draws|` times without signalling game over. */
  function Ticks(s: GameState, catalog: Catalog, draws: seq<int>): GameState
    requires forall i :: 0 <= i < |draws| ==> 0 <= draws[i] < KINDS
    decreases |draws|
  {
    if |draws| == 0 then s
    else GameLoop(Ticks(s, catalog, draws[..|draws| - 1]), catalog, draws[|draws| - 1]).state
  }

  // ---------------------------------------------------------------------
  // Starting, clicking and clearing

  /** `start`: the timer starts at the level-0 delay, then the current and
      the following piece are drawn (kinds `first` and `second`). */
  function Start(cols: nat, rows: nat, catalog: Catalog, first: int, second: int): (s: GameState)
    requires 0 <= first < KINDS && 0 <= second < KINDS
    ensures s.grid == New(cols, rows)
    ensures s.score == 0 && s.level == Level(0) && s.lives == START_LIVES && s.multiplier == 0
    ensures s.current == catalog[first] && s.following == catalog[second]
    ensures s.timer == Running(TimerDelay(s.level)) && s.timer == Running(SLOWEST_DELAY)
  {
    GameState(0, 0, START_LIVES, 0, catalog[first], catalog[second], 0, 0,
      New(cols, rows), false, Running(TimerDelay(0)))
  }

  /** Outcome of clicking a cell (or pressing Enter). */
  datatype Outcome =
    | Rejected(state: GameState)
    | Placed(state: GameState, cleared: set<(int, int)>)
      /** The piece was accepted but a part of it fell off the board: the
          write threw after changing some cells, and the scan, the scoring
          and the next piece never happened. */
    | Faulted(state: GameState)

  /** `blockClicked` at (x, y): a piece that `canPlayPiece` rejects only
      clears the flag; an accepted one sets it, restarts the timer at the
      current level's delay, is written, scored and replaced by the next
      piece. */
  function Click(s: GameState, x: int, y: int, catalog: Catalog, draw: int): (o: Outcome)
    requires 0 <= draw < KINDS
    ensures o.Rejected? <==> !CanPlayPiece(s.grid, s.current, x, y)
    ensures o.Rejected? ==> o.state == s.(accepted := false)
    ensures !o.Rejected? ==> o.state.accepted && o.state.timer == Running(TimerDelay(s.level))
    ensures o.Faulted? <==> CanPlayPiece(s.grid, s.current, x, y) && !OnBoard(s.grid, s.current, x, y)
    ensures o.Faulted? ==> o.state.(grid := s.grid, accepted := s.accepted, timer := s.timer) == s
    ensures o.Faulted? ==> o.state.grid == PlayPiece(s.grid, s.current, x, y).grid
    ensures o.Placed? ==>
      var played := PlayPiece(s.grid, s.current, x, y).grid;
      o.state.grid == played && o.cleared == Scan(played).cells
      && o.state.current == s.following && o.state.following == catalog[draw]
      && o.state.lives == s.lives && o.state.cursorX == s.cursorX && o.state.cursorY == s.cursorY
    ensures o.Placed? ==>
      var played := PlayPiece(s.grid, s.current, x, y).grid;
      var t := AfterPiece(s.(accepted := true, timer := Running(TimerDelay(s.level)), grid := played)).state;
      o.state.score == t.score && o.state.level == t.level && o.state.multiplier == t.multiplier
  {
    if !CanPlayPiece(s.grid, s.current, x, y) then Rejected(s.(accepted := false))
    else
      var started := s.(accepted := true, timer := Running(TimerDelay(s.level)));
      match PlayPiece(started.grid, started.current, x, y)
      case OutOfBounds(g) => Faulted(started.(grid := g))
      case Played(g) =>
        var settled := AfterPiece(started.(grid := g));
        Placed(NextPiece(settled.state, catalog, draw), settled.cleared)
  }

  /** `keyboardControlsEnter`: the same as clicking the cursor's cell. */
  function Enter(s: GameState, catalog: Catalog, draw: int): (o: Outcome)
    requires 0 <= draw < KINDS
    ensures o.Rejected? <==> !CanPlayPiece(s.grid, s.current, s.cursorX, s.cursorY)
    ensures o.Rejected? ==> o.state == s.(accepted := false)
    ensures !o.Rejected? ==> o.state.accepted && o.state.timer == Running(TimerDelay(s.level))
    ensures o.Faulted? <==>
      CanPlayPiece(s.grid, s.current, s.cursorX, s.cursorY) && !OnBoard(s.grid, s.current, s.cursorX, s.cursorY)
    ensures o.Faulted? ==> o.state.(grid := s.grid, accepted := s.accepted, timer := s.timer) == s
    ensures o.Faulted? ==> o.state.grid == PlayPiece(s.grid, s.current, s.cursorX, s.cursorY).grid
    ensures o.Placed? ==>
      var played := PlayPiece(s.grid, s.current, s.cursorX, s.cursorY).grid;
      o.state.grid == played && o.cleared == Scan(played).cells
      && o.state.current == s.following && o.state.following == catalog[draw]
      && o.state.lives == s.lives && o.state.cursorX == s.cursorX && o.state.cursorY == s.cursorY
    ensures o.Placed? ==>
      var played := PlayPiece(s.grid, s.current, s.cursorX, s.cursorY).grid;
      var t := AfterPiece(s.(accepted := true, timer := Running(TimerDelay(s.level)), grid := played)).state;
      o.state.score == t.score && o.state.level == t.level && o.state.multiplier == t.multiplier
  {
    Click(s, s.cursorX, s.cursorY, catalog, draw)
  }

  /** An accepted placement that fits is scored: without a full line the
      multiplier drops to 0 and the score stays; with one, on a square
      board and short of wrap-around, the multiplier goes up by one and the
      score rises by lines x blocks x 10 x the new multiplier. */
  lemma PlacementScores(s: GameState, x: int, y: int, catalog: Catalog, draw: int)
    requires 0 <= draw < KINDS
    requires Click(s, x, y, catalog, draw).Placed?
    ensures var scan := Scan(PlayPiece(s.grid, s.current, x, y).grid);
      var o := Click(s, x, y, catalog, draw);
      scan.lines == 0 ==> o.state.score == s.score && o.state.level == s.level && o.state.multiplier == 0
    ensures var scan := Scan(PlayPiece(s.grid, s.current, x, y).grid);
      var o := Click(s, x, y, catalog, draw);
      s.grid.cols == s.grid.rows && scan.lines > 0
      && 0 <= s.score <= INT_MAX && 0 <= s.multiplier < INT_MAX
      && s.score + scan.lines * scan.blocks * 10 * (s.multiplier + 1) <= INT_MAX
      ==> (o.state.multiplier == s.multiplier + 1
        && o.state.score == s.score + scan.lines * scan.blocks * 10 * (s.multiplier + 1)
        && o.state.score > s.score)
  {
    var played := PlayPiece(s.grid, s.current, x, y).grid;
    var started := s.(accepted := true, timer := Running(TimerDelay(s.level)), grid := played);
    var scan := Scan(played);
    if s.grid.cols == s.grid.rows && scan.lines > 0
      && 0 <= s.score <= INT_MAX && 0 <= s.multiplier < INT_MAX
      && s.score + scan.lines * scan.blocks * 10 * (s.multiplier + 1) <= INT_MAX
    {
      ClearingScores(started);
    }
  }

  /** The board listener's reaction to the reported cells: each is set to
      0. */
  function ClearCells(s: GameState, cells: set<(int, int)>): (r: GameState)
    ensures r.(grid := s.grid) == s
    ensures SameShape(r.grid, s.grid)
    ensures forall a, b :: InBounds(s.grid, a, b) ==>
      r.grid.cells[a][b] == if (a, b) in cells then EMPTY else s.grid.cells[a][b]
  {
    s.(grid := Zero(s.grid, cells))
  }

  /** A placement followed by zeroing what it reported leaves no full line
      on a square board. */
  lemma PlacedThenClearedHasNoFullLine(s: GameState, x: int, y: int, catalog: Catalog, draw: int)
    requires 0 <= draw < KINDS
    requires s.grid.cols == s.grid.rows && s.grid.cols > 0
    requires Click(s, x, y, catalog, draw).Placed?
    ensures var o := Click(s, x, y, catalog, draw);
      Scan(ClearCells(o.state, o.cleared).grid).lines == 0
  {
    var o := Click(s, x, y, catalog, draw);
    ClearLeavesNoFullLine(o.state.grid);
  }

  // ---------------------------------------------------------------------
  // The keyboard cursor

  /** Cell (a, b) lies on the stretch of line the move sweeps for stale
      markers: the cursor's row from its start up to the cursor, in the
      direction of the move; or likewise the cursor's column. */
  predicate Swept(cols: int, rows: int, dx: int, dy: int, x: int, y: int, a: int, b: int) {
    if dx != 0 then b == y && (if dx > 0 then 0 <= a < x else x < a < cols)
    else if dy != 0 then a == x && (if dy > 0 then 0 <= b < y else y < b < rows)
    else false
  }

  /** The swept stretch with every cursor marker on it zeroed. */
  function Sweep(g: Grid, dx: int, dy: int, x: int, y: int): (r: Grid)
    ensures SameShape(r, g)
    ensures forall a, b :: InBounds(g, a, b) ==>
      r.cells[a][b] == if Swept(g.cols, g.rows, dx, dy, x, y, a, b) && g.cells[a][b] == CURSOR then EMPTY
                       else g.cells[a][b]
  {
    Cells(g.cols, g.rows,
      seq(g.cols, a requires 0 <= a < g.cols =>
        seq(g.rows, b requires 0 <= b < g.rows =>
          if Swept(g.cols, g.rows, dx, dy, x, y, a, b) && g.cells[a][b] == CURSOR then EMPTY
          else g.cells[a][b])))
  }

  /** `move(dx, dy)`: a target off the board is ignored. Otherwise the
      cursor moves, marks its cell if that is empty, and sweeps the stale
      markers behind it. */
  function Move(s: GameState, dx: int, dy: int): (r: GameState)
    ensures var x, y := Wrap(s.cursorX + dx), Wrap(s.cursorY + dy);
      !InBounds(s.grid, x, y) ==> r == s
    ensures var x, y := Wrap(s.cursorX + dx), Wrap(s.cursorY + dy);
      InBounds(s.grid, x, y) ==>
        r.(grid := s.grid) == s.(cursorX := x, cursorY := y)
        && SameShape(r.grid, s.grid)
        && r.grid.cells[x][y] == (if s.grid.cells[x][y] <= EMPTY then CURSOR else s.grid.cells[x][y])
        && forall a, b :: InBounds(s.grid, a, b) && (a, b) != (x, y) ==>
             r.grid.cells[a][b] == s.grid.cells[a][b]
             || (s.grid.cells[a][b] == CURSOR && r.grid.cells[a][b] == EMPTY
                 && Swept(s.grid.cols, s.grid.rows, dx, dy, x, y, a, b))
    ensures var x, y := Wrap(s.cursorX + dx), Wrap(s.cursorY + dy);
      InBounds(s.grid, x, y) ==>
        forall a, b ::
          (InBounds(s.grid, a, b) && s.grid.cells[a][b] == CURSOR
           && Swept(s.grid.cols, s.grid.rows, dx, dy, x, y, a, b)) ==> r.grid.cells[a][b] == EMPTY
  {
    var x, y := Wrap(s.cursorX + dx), Wrap(s.cursorY + dy);
    if !InBounds(s.grid, x, y) then s
    else
      var marked := if s.grid.cells[x][y] <= EMPTY then Set(s.grid, x, y, CURSOR) else s.grid;
      s.(cursorX := x, cursorY := y, grid := Sweep(marked, dx, dy, x, y))
  }

  /** `move` as written: mark the target, then walk the line from its start
      toward the cursor, zeroing every marker met. */
  method MoveCursor(s: GameState, dx: int, dy: int) returns (r: GameState)
    ensures r == Move(s, dx, dy)
  {
    var x, y := Wrap(s.cursorX + dx), Wrap(s.cursorY + dy);
    if !(0 <= x < s.grid.cols && 0 <= y < s.grid.rows) {
      return s;
    }
    var g := s.grid;
    if Get(g, x, y) <= EMPTY {
      g := Set(g, x, y, CURSOR);
    }
    if dx != 0 {
      g := SweepRow(g, dx, dy, x, y);
    } else if dy != 0 {
      g := SweepColumn(g, dx, dy, x, y);
    } else {
      Extensionality(g, Sweep(g, dx, dy, x, y));
    }
    r := s.(cursorX := x, cursorY := y, grid := g);
  }

  /** The horizontal sweep: `i` runs from the row's start (0 moving right,
      the last column moving left) up to the cursor's column. */
  method SweepRow(g: Grid, dx: int, dy: int, x: int, y: int) returns (h: Grid)
    requires dx != 0 && InBounds(g, x, y)
    ensures h == Sweep(g, dx, dy, x, y)
  {
    h := g;
    var i := if dx > 0 then 0 else g.cols - 1;
    var step := if dx > 0 then 1 else -1;
    while i != x
      invariant if dx > 0 then 0 <= i <= x else x <= i < g.cols
      invariant SameShape(h, g)
      invariant forall a, b :: InBounds(g, a, b) ==>
        h.cells[a][b] == if b == y && (if dx > 0 then 0 <= a < i else i < a < g.cols) && g.cells[a][b] == CURSOR
                         then EMPTY else g.cells[a][b]
      decreases if dx > 0 then x - i else i - x
    {
      if Get(h, i, y) == CURSOR {
        h := Set(h, i, y, EMPTY);
      }
      i := i + step;
    }
    Extensionality(h, Sweep(g, dx, dy, x, y));
  }

  /** The vertical sweep, along the cursor's column. */
  method SweepColumn(g: Grid, dx: int, dy: int, x: int, y: int) returns (h: Grid)
    requires dx == 0 && dy != 0 && InBounds(g, x, y)
    ensures h == Sweep(g, dx, dy, x, y)
  {
    h := g;
    var i := if dy > 0 then 0 else g.rows - 1;
    var step := if dy > 0 then 1 else -1;
    while i != y
      invariant if dy > 0 then 0 <= i <= y else y <= i < g.rows
      invariant SameShape(h, g)
      invariant forall a, b :: InBounds(g, a, b) ==>
        h.cells[a][b] == if a == x && (if dy > 0 then 0 <= b < i else i < b < g.rows) && g.cells[a][b] == CURSOR
                         then EMPTY else g.cells[a][b]
      decreases if dy > 0 then y - i else i - y
    {
      if Get(h, x, i) == CURSOR {
        h := Set(h, x, i, EMPTY);
      }
      i := i + step;
    }
    Extensionality(h, Sweep(g, dx, dy, x, y));
  }

  /** The keyboard moves: one step along one axis. */
  predicate UnitStep(dx: int, dy: int) {
    (dx == 0 && (dy == 1 || dy == -1)) || (dy == 0 && (dx == 1 || dx == -1))
  }

  /** Every cursor marker on the board sits under the cursor. */
  ghost predicate MarkerAtCursor(s: GameState) {
    forall a, b :: InBounds(s.grid, a, b) && s.grid.cells[a][b] == CURSOR ==> a == s.cursorX && b == s.cursorY
  }

  /** A keyboard step clears the marker it leaves behind, so the cursor's
      marker is the only one on the board. */
  lemma StepKeepsOneMarker(s: GameState, dx: int, dy: int)
    requires UnitStep(dx, dy)
    requires IsInt32(s.cursorX + dx) && IsInt32(s.cursorY + dy)
    requires MarkerAtCursor(s)
    ensures MarkerAtCursor(Move(s, dx, dy))
  {
    var x, y := s.cursorX + dx, s.cursorY + dy;
    var r := Move(s, dx, dy);
    if InBounds(s.grid, x, y) {
      forall a, b | InBounds(r.grid, a, b) && r.grid.cells[a][b] == CURSOR
        ensures a == x && b == y
      {
        if (a, b) != (x, y) {
          assert s.grid.cells[a][b] == CURSOR;
          assert a == s.cursorX && b == s.cursorY;
          assert Swept(s.grid.cols, s.grid.rows, dx, dy, x, y, a, b);
        }
      }
    }
  }

  /** Moving the cursor never changes a piece colour on the board. */
  lemma MoveKeepsColours(s: GameState, dx: int, dy: int)
    ensures forall a, b :: InBounds(s.grid, a, b) && IsColour(s.grid.cells[a][b]) ==>
      Move(s, dx, dy).grid.cells[a][b] == s.grid.cells[a][b]
  {
  }

  // ---------------------------------------------------------------------
  // The invariant every event keeps

  /** What holds of every game the events reach: `int` values in range, the
      level following the score, coloured pieces, a paintable board whose
      only marker is under the cursor, and the cursor at its start or on
      the board. */
  ghost predicate Inv(s: GameState) {
    && IsInt32(s.score) && IsInt32(s.lives) && IsInt32(s.multiplier)
    && s.level == Level(s.score)
    && IsColour(s.current.value) && IsColour(s.following.value)
    && s.grid.cols <= INT_MAX && s.grid.rows <= INT_MAX
    && AllPaintable(s.grid)
    && MarkerAtCursor(s)
    && ((s.cursorX == 0 && s.cursorY == 0) || InBounds(s.grid, s.cursorX, s.cursorY))
  }

  lemma StartEstablishesInv(cols: nat, rows: nat, catalog: Catalog, first: int, second: int)
    requires Coloured(catalog)
    requires 0 <= first < KINDS && 0 <= second < KINDS
    requires cols <= INT_MAX && rows <= INT_MAX
    ensures Inv(Start(cols, rows, catalog, first, second))
  {
  }

  lemma GameLoopKeepsInv(s: GameState, catalog: Catalog, draw: int)
    requires Inv(s) && Coloured(catalog) && 0 <= draw < KINDS
    ensures Inv(GameLoop(s, catalog, draw).state)
  {
  }

  lemma SwapKeepsInv(s: GameState)
    requires Inv(s)
    ensures Inv(Swap(s))
  {
  }

  lemma RotateKeepsInv(s: GameState, turn: GamePiece -> GamePiece)
    requires Inv(s)
    requires forall p :: turn(p).value == p.value
    ensures Inv(Rotate(s, turn))
  {
  }

  lemma ScoreKeepsInv(s: GameState, blocks: int, lines: int)
    requires Inv(s)
    ensures Inv(Score(s, blocks, lines))
  {
  }

  lemma ClickKeepsInv(s: GameState, x: int, y: int, catalog: Catalog, draw: int)
    requires Inv(s) && Coloured(catalog) && 0 <= draw < KINDS
    ensures Inv(Click(s, x, y, catalog, draw).state)
  {
    if CanPlayPiece(s.grid, s.current, x, y) {
      var started := s.(accepted := true, timer := Running(TimerDelay(s.level)));
      var played := PlayPiece(s.grid, s.current, x, y);
      AcceptedPlacementKeepsPaint(s.grid, s.current, x, y);
      assert Inv(started.(grid := played.grid));
      if played.Played? {
        var m := if Scan(played.grid).lines > 0 then Wrap(s.multiplier + 1) else 0;
        ScoreKeepsInv(started.(grid := played.grid, multiplier := m), Scan(played.grid).blocks, Scan(played.grid).lines);
      }
    }
  }

  /** Writing a coloured piece keeps the board paintable and overwrites
      any marker it covers. */
  lemma AcceptedPlacementKeepsPaint(g: Grid, p: GamePiece, x: int, y: int)
    requires AllPaintable(g) && IsColour(p.value)
    ensures AllPaintable(PlayPiece(g, p, x, y).grid)
    ensures forall a, b :: InBounds(g, a, b) && PlayPiece(g, p, x, y).grid.cells[a][b] == CURSOR ==>
      g.cells[a][b] == CURSOR
  {
  }

  lemma ClearCellsKeepsInv(s: GameState, cells: set<(int, int)>)
    requires Inv(s)
    ensures Inv(ClearCells(s, cells))
  {
  }

  lemma MoveKeepsInv(s: GameState, dx: int, dy: int)
    requires Inv(s) && UnitStep(dx, dy)
    ensures Inv(Move(s, dx, dy))
  {
    assert IsInt32(s.cursorX + dx) && IsInt32(s.cursorY + dy);
    StepKeepsOneMarker(s, dx, dy);
    var r := Move(s, dx, dy);
    forall a, b | InBounds(r.grid, a, b)
      ensures Paintable(r.grid.cells[a][b])
    {
      assert InBounds(s.grid, a, b);
    }
  }
}

=== FILE: java_int.dfy ===
/** Java `int` semantics the game relies on: the 32-bit range, truncating
    division, and the decimal text form produced by `Integer.toString` and
    read back by `Integer.parseInt`. */
module JavaInt {

  const INT_MIN: int := -0x8000_0000
  const INT_MAX: int := 0x7fff_ffff

  predicate IsInt32(n: int) {
    INT_MIN <= n <= INT_MAX
  }

  const TWO_32: int := 0x1_0000_0000

  /** The `int` an exact result wraps to: arithmetic on `int` keeps the value
      modulo 2^32, read back in the signed range. */
  function Wrap(v: int): (r: int)
    ensures IsInt32(r)
    ensures IsInt32(v) ==> r == v
    ensures (r - v) % TWO_32 == 0
  {
    (v - INT_MIN) % TWO_32 + INT_MIN
  }

  /** Java's `/` on `int`: the quotient is truncated toward zero
      (Dafny's own `/` is Euclidean). */
  function Div(a: int, b: int): (q: int)
    requires b > 0
    ensures a >= 0 ==> 0 <= q && q * b <= a < q * b + b
    ensures a <= 0 ==> q <= 0 && q * b - b < a <= q * b
  {
    if a >= 0 then a / b else -((-a) / b)
  }

  /** Truncation is symmetric about zero: negating the numerator negates
      the quotient. */
  lemma DivNegate(a: int, b: int)
    requires b > 0
    ensures Div(-a, b) == -Div(a, b)
  {
  }

  predicate IsDigit(c: char) {
    '0' <= c <= '9'
  }

  function DigitValue(c: char): (d: nat)
    requires IsDigit(c)
    ensures d < 10
  {
    (c as int - '0' as int) as nat
  }

  function DigitChar(d: nat): (c: char)
    requires d < 10
    ensures IsDigit(c) && DigitValue(c) == d
  {
    ('0' as int + d) as char
  }

  predicate AllDigits(s: string) {
    forall i :: 0 <= i < |s| ==> IsDigit(s[i])
  }

  /** The value of a non-empty run of decimal digits, most significant first. */
  function DigitsValue(s: string): nat
    requires AllDigits(s)
  {
    if |s| == 0 then 0 else DigitsValue(s[..|s| - 1]) * 10 + DigitValue(s[|s| - 1])
  }

  /** Decimal text of a natural number, without leading zeros. */
  function NatToString(n: nat): (s: string)
    ensures |s| > 0 && AllDigits(s)
    ensures |s| > 1 ==> s[0] != '0'
  {
    if n < 10 then [DigitChar(n)] else NatToString(n / 10) + [DigitChar(n % 10)]
  }

  /** `Integer.toString(n)` / string concatenation of an `int`. */
  function IntToString(n: int): (s: string)
    ensures |s| > 0
    ensures n >= 0 ==> AllDigits(s)
    ensures n < 0 ==> s[0] == '-' && |s| > 1 && AllDigits(s[1..])
  {
    if n < 0 then "-" + NatToString(-n) else NatToString(n)
  }

  /** `Integer.parseInt(s)` in radix 10: an optional sign, then at least one
      digit, and a value inside the 32-bit range; anything else is a
      `NumberFormatException`, modelled as `None`. Only ASCII digits are
      modelled. */
  function ParseInt(s: string): (r: Option<int>)
    ensures r.Some? ==> IsInt32(r.value) && |s| > 0
    ensures |s| == 0 ==> r.None?
  {
    if |s| == 0 then None
    else
      var neg := s[0] == '-';
      var body := if s[0] == '-' || s[0] == '+' then s[1..] else s;
      if |body| == 0 || !AllDigits(body) then None
      else
        var v: int := if neg then -(DigitsValue(body) as int) else DigitsValue(body) as int;
        if IsInt32(v) then Some(v) else None
  }

  datatype Option<T> = None | Some(value: T)

  lemma {:induction false} DigitsValueOfNatToString(n: nat)
    ensures DigitsValue(NatToString(n)) == n
  {
    var s := NatToString(n);
    if n >= 10 {
      DigitsValueOfNatToString(n / 10);
      assert s[..|s| - 1] == NatToString(n / 10);
    }
  }

  /** Every 32-bit value survives `Integer.toString` followed by
      `Integer.parseInt`. */
  lemma ParseIntToString(n: int)
    requires IsInt32(n)
    ensures ParseInt(IntToString(n)) == Some(n)
  {
    var s := IntToString(n);
    if n < 0 {
      assert s[1..] == NatToString(-n);
      DigitsValueOfNatToString(-n);
    } else {
      DigitsValueOfNatToString(n);
      assert s[0] != '-' && s[0] != '+' by {
        assert IsDigit(s[0]);
      }
    }
  }
}

=== FILE: java_text.dfy ===
/** The two pieces of Java's text library the high-score file depends on:
    `String.split` with a one-character literal separator, and the line
    structure `BufferedReader.readLine` reads out of a file. */
module JavaText {

  /** The pieces of `s` between occurrences of `sep`, empty pieces included
      (the raw material of `String.split`). */
  function Segments(s: string, sep: char): (parts: seq<string>)
    ensures |parts| >= 1
    ensures forall k :: 0 <= k < |parts| ==> sep !in parts[k]
    ensures sep !in s ==> parts == [s]
    decreases |s|
  {
    if |s| == 0 then [""]
    else
      var rest := Segments(s[1..], sep);
      if s[0] == sep then [""] + rest
      else
        assert sep !in s ==> rest == [s[1..]] && [s[0]] + s[1..] == s;
        [[s[0]] + rest[0]] + rest[1..]
  }

  /** `String.split` drops every trailing empty string from its result. */
  function DropTrailingEmpty(parts: seq<string>): (r: seq<string>)
    ensures |r| <= |parts| && r == parts[..|r|]
    ensures |r| > 0 ==> r[|r| - 1] != ""
    ensures forall k :: |r| <= k < |parts| ==> parts[k] == ""
  {
    if |parts| > 0 && parts[|parts| - 1] == "" then DropTrailingEmpty(parts[..|parts| - 1])
    else parts
  }

  /** `s.split(sep)` for a separator that is not a regular-expression
      metacharacter. When `sep` does not occur the result is `[s]` itself,
      even for the empty string. */
  function Split(s: string, sep: char): (parts: seq<string>)
    ensures sep !in s ==> parts == [s]
    ensures forall k :: 0 <= k < |parts| ==> sep !in parts[k]
  {
    if sep !in s then [s] else DropTrailingEmpty(Segments(s, sep))
  }

  lemma {:induction false} SegmentsOfJoin(a: string, sep: char, b: string)
    requires sep !in a
    ensures Segments(a + [sep] + b, sep) == [a] + Segments(b, sep)
    decreases |a|, 1
  {
    if |a| == 0 {
      assert a + [sep] + b == [sep] + b;
      assert ([sep] + b)[1..] == b;
    } else {
      SegmentsOfJoinStep(a, sep, b);
    }
  }

  lemma {:induction false} SegmentsOfJoinStep(a: string, sep: char, b: string)
    requires sep !in a && |a| > 0
    ensures Segments(a + [sep] + b, sep) == [a] + Segments(b, sep)
    decreases |a|, 0
  {
    var s := a + [sep] + b;
    assert s[1..] == a[1..] + [sep] + b;
    SegmentsOfJoin(a[1..], sep, b);
    SegmentsCons(s, sep);
    assert [a[0]] + a[1..] == a;
  }

  /** Unfolding `Segments` at a first character that is not the separator. */
  lemma SegmentsCons(s: string, sep: char)
    requires |s| > 0 && s[0] != sep
    ensures var rest := Segments(s[1..], sep); Segments(s, sep) == [[s[0]] + rest[0]] + rest[1..]
  {
  }

  lemma {:induction false} FirstSegmentIsPrefix(s: string, sep: char)
    requires |Segments(s, sep)| >= 2
    ensures var p := Segments(s, sep)[0]; |p| < |s| && s[..|p|] == p && s[|p|] == sep
    decreases |s|
  {
    if s[0] != sep {
      FirstSegmentIsPrefix(s[1..], sep);
    }
  }

  /** Splitting `name + sep + value` gives back the two parts whenever
      neither contains the separator and the value is not empty. */
  lemma SplitOfPair(name: string, sep: char, value: string)
    requires sep !in name && sep !in value && |value| > 0
    ensures Split(name + [sep] + value, sep) == [name, value]
  {
    var s := name + [sep] + value;
    assert s[|name|] == sep;
    SegmentsOfJoin(name, sep, value);
  }

  /** When `split` yields at least two parts, the first one is exactly the
      text before the first separator. */
  lemma SplitHeadIsPrefix(s: string, sep: char)
    requires |Split(s, sep)| >= 2
    ensures var p := Split(s, sep)[0]; |p| < |s| && s[..|p|] == p && s[|p|] == sep && sep !in p
  {
    FirstSegmentIsPrefix(s, sep);
  }

  predicate IsTerminator(c: char) {
    c == '\n' || c == '\r'
  }

  predicate NoTerminator(s: string) {
    forall i :: 0 <= i < |s| ==> !IsTerminator(s[i])
  }

  /** Length of the first line of `t`: the characters before its first
      terminator. */
  function LineLength(t: string): (k: nat)
    ensures k <= |t| && NoTerminator(t[..k])
    ensures k < |t| ==> IsTerminator(t[k])
  {
    if |t| == 0 || IsTerminator(t[0]) then 0
    else
      var k := 1 + LineLength(t[1..]);
      assert t[..k] == [t[0]] + t[1..][..k - 1];
      k
  }

  /** The successive results of `BufferedReader.readLine` on `t` until it
      returns null: lines end at "\n", "\r" or "\r\n", a final line without
      terminator is still returned, and a terminator at the very end does not
      start another line. */
  function ReadLines(t: string): (lines: seq<string>)
    ensures t == "" <==> lines == []
    decreases |t|
  {
    if |t| == 0 then []
    else
      var k := LineLength(t);
      if k == |t| then [t]
      else [t[..k]] + ReadLines(t[NextStart(t, k)..])
  }

  /** No line read contains a terminator. */
  lemma {:induction false} ReadLinesNoTerminator(t: string)
    ensures forall i :: 0 <= i < |ReadLines(t)| ==> NoTerminator(ReadLines(t)[i])
    decreases |t|
  {
    if |t| > 0 && LineLength(t) < |t| {
      ReadLinesNoTerminator(t[NextStart(t, LineLength(t))..]);
    }
  }

  /** Where the line after the terminator at `k` starts: "\r\n" counts as one
      terminator. */
  function NextStart(t: string, k: nat): (next: nat)
    requires k < |t|
    ensures k < next <= |t|
  {
    if t[k] == '\r' && k + 1 < |t| && t[k + 1] == '\n' then k + 2 else k + 1
  }

  /** Text appended after a line's terminator, or after a first line that
      already ends in front of one, does not change where that line ends. */
  lemma {:induction false} LineLengthExtend(t: string, rest: string)
    requires LineLength(t) < |t| || (|rest| > 0 && IsTerminator(rest[0]))
    ensures LineLength(t + rest) == LineLength(t)
    decreases |t|
  {
    if |t| > 0 && !IsTerminator(t[0]) {
      LineLengthExtend(t[1..], rest);
      assert (t + rest)[1..] == t[1..] + rest;
    }
  }

  /** A text without terminators is read as exactly one line. */
  lemma ReadSingleLine(t: string)
    requires |t| > 0 && NoTerminator(t)
    ensures ReadLines(t) == [t]
  {
  }

  /** Appending "\n" + `line` to a text whose last character is not a
      terminator adds exactly `line` to what is read back. */
  lemma {:induction false} ReadLinesAppend(t: string, line: string)
    requires |t| > 0 && !IsTerminator(t[|t| - 1])
    requires |line| > 0 && NoTerminator(line)
    ensures ReadLines(t + "\n" + line) == ReadLines(t) + [line]
    decreases |t|, 1
  {
    if LineLength(t) == |t| {
      AppendToSingleLine(t, line);
    } else {
      AppendAfterLines(t, line);
    }
  }

  /** The inductive step: the first line of `t` ends inside it. */
  lemma {:induction false} AppendAfterLines(t: string, line: string)
    requires |t| > 0 && !IsTerminator(t[|t| - 1]) && LineLength(t) < |t|
    requires |line| > 0 && NoTerminator(line)
    ensures ReadLines(t + "\n" + line) == ReadLines(t) + [line]
    decreases |t|, 0
  {
    var k := LineLength(t);
    var rest := t[NextStart(t, k)..];
    UnfoldAppend(t, line);
    ReadLinesAppend(rest, line);
    AppendAfterFirst(t[..k], ReadLines(rest), ReadLines(rest + "\n" + line), line);
  }

  lemma AppendAfterFirst<T>(first: T, rest: seq<T>, extended: seq<T>, last: T)
    requires extended == rest + [last]
    ensures [first] + extended == ([first] + rest) + [last]
  {
  }

  /** Appending to a text that is a single line gives that line and the new
      one. */
  lemma AppendToSingleLine(t: string, line: string)
    requires |t| > 0 && LineLength(t) == |t|
    requires |line| > 0 && NoTerminator(line)
    ensures ReadLines(t) == [t]
    ensures ReadLines(t + "\n" + line) == [t, line]
  {
    var u := t + "\n" + line;
    assert u == t + ("\n" + line);
    LineLengthExtend(t, "\n" + line);
    assert u[..|t|] == t;
    assert u[|t| + 1..] == line;
    ReadSingleLine(line);
  }

  /** Reading a text whose first line ends inside `t`: the first line, then
      the lines of what follows its terminator, with or without the appended
      line. */
  lemma UnfoldAppend(t: string, line: string)
    requires |t| > 0 && !IsTerminator(t[|t| - 1])
    requires LineLength(t) < |t|
    ensures var k := LineLength(t); var rest := t[NextStart(t, k)..];
      && |rest| > 0 && !IsTerminator(rest[|rest| - 1])
      && ReadLines(t) == [t[..k]] + ReadLines(rest)
      && ReadLines(t + "\n" + line) == [t[..k]] + ReadLines(rest + "\n" + line)
  {
    var k := LineLength(t);
    var next := NextStart(t, k);
    var u := t + "\n" + line;
    LineLengthExtend(t, "\n" + line);
    assert u == t + ("\n" + line);
    assert u[k] == t[k] && (k + 1 < |t| ==> u[k + 1] == t[k + 1]);
    assert NextStart(u, k) == next;
    assert u[next..] == t[next..] + "\n" + line;
    assert u[..k] == t[..k];
  }
}

=== FILE: line_clear.dfy ===
/** Line detection after a placement, as the canonical grid does it. The
    scan reads `get(row, col)` with the row counter in the column position,
    so its "rows" are board columns and its "columns" are board rows; on a
    square board that finds exactly the full lines. Nothing here changes the
    board: the reported cells are zeroed later, by `Board.Zero`. */
module LineClear {
  import opened Board
  import opened CellCount

  /** The first scan loop: line `r` is full when `get(r, c) > 0` for every
      `c` below the column count. Any positive value counts, the cursor
      marker included. */
  predicate ScannedRowFull(g: Grid, r: int) {
    forall c :: 0 <= c < g.cols ==> Get(g, r, c) > 0
  }

  /** The second scan loop: line `c` is full when `get(r, c) > 0` for every
      `r` below the row count. */
  predicate ScannedColFull(g: Grid, c: int) {
    forall r :: 0 <= r < g.rows ==> Get(g, r, c) > 0
  }

  function FullRows(g: Grid): (s: set<int>)
    ensures Below(s, g.rows)
  {
    set r | 0 <= r < g.rows && ScannedRowFull(g, r)
  }

  function FullCols(g: Grid): (s: set<int>)
    ensures Below(s, g.cols)
  {
    set c | 0 <= c < g.cols && ScannedColFull(g, c)
  }

  /** What `afterPiece` computes before it touches the game: the number of
      full lines, the number of distinct cells to clear, and those cells. */
  datatype Clearance = Clearance(lines: nat, blocks: nat, cells: set<(int, int)>)

  function Scan(g: Grid): (r: Clearance)
    ensures r.cells == Cleared(FullRows(g), FullCols(g), g.rows, g.cols)
    ensures r.lines == |FullRows(g)| + |FullCols(g)|
    ensures r.blocks == |r.cells|
    ensures r.blocks == |FullRows(g)| * g.cols + |FullCols(g)| * g.rows - |FullRows(g)| * |FullCols(g)|
  {
    var rows, cols := FullRows(g), FullCols(g);
    var cells := Cleared(rows, cols, g.rows, g.cols);
    ClearedSize(rows, cols, g.rows, g.cols);
    Clearance(|rows| + |cols|, |cells|, cells)
  }

  // The board's own notion of a full line, independent of the scan.

  /** Every cell of board column `x` is occupied (positive). */
  predicate ColumnFilled(g: Grid, x: int) {
    0 <= x < g.cols && forall y :: 0 <= y < g.rows ==> g.cells[x][y] > 0
  }

  /** Every cell of board row `y` is occupied (positive). */
  predicate RowFilled(g: Grid, y: int) {
    0 <= y < g.rows && forall x :: 0 <= x < g.cols ==> g.cells[x][y] > 0
  }

  predicate OnFilledLine(g: Grid, x: int, y: int) {
    InBounds(g, x, y) && (ColumnFilled(g, x) || RowFilled(g, y))
  }

  /** On a square board the transposed scan finds exactly the filled board
      columns and rows, and reports exactly the cells lying on one. */
  lemma ScanFindsFilledLines(g: Grid)
    requires g.cols == g.rows
    ensures forall r :: r in FullRows(g) <==> ColumnFilled(g, r)
    ensures forall c :: c in FullCols(g) <==> RowFilled(g, c)
    ensures forall x, y :: (x, y) in Scan(g).cells <==> OnFilledLine(g, x, y)
  {
    forall r ensures r in FullRows(g) <==> ColumnFilled(g, r) {
      if 0 <= r < g.rows {
        assert ScannedRowFull(g, r) <==> ColumnFilled(g, r) by {
          assert forall c :: 0 <= c < g.cols ==> Get(g, r, c) == g.cells[r][c];
        }
      }
    }
    forall c ensures c in FullCols(g) <==> RowFilled(g, c) {
      if 0 <= c < g.cols {
        assert ScannedColFull(g, c) <==> RowFilled(g, c) by {
          assert forall r :: 0 <= r < g.rows ==> Get(g, r, c) == g.cells[r][c];
        }
      }
    }
  }

  /** A full 2-column, 3-row board: its row 0 and column 0 are filled, yet
      the transposed scan skips row 0 entirely and does not report cell
      (0, 2), which lies on both filled lines. */
  lemma NonSquareScanMissesLines()
    ensures var g: Grid := Cells(2, 3, [[1, 1, 1], [1, 1, 1]]);
      RowFilled(g, 0) && 0 !in FullCols(g) && OnFilledLine(g, 0, 2) && (0, 2) !in Scan(g).cells
  {
    var g: Grid := Cells(2, 3, [[1, 1, 1], [1, 1, 1]]);
    assert Get(g, 2, 0) == OFF_BOARD;
    assert !ScannedColFull(g, 0);
    assert Get(g, 2, 1) == OFF_BOARD;
    assert !ScannedColFull(g, 1);
    assert FullCols(g) == {};
  }


  /** On the 5x5 board one full line clears 5 cells, and a full row together
      with a full column clears 9. */
  lemma FiveByFiveCounts(g: Grid)
    requires g.cols == 5 && g.rows == 5
    ensures |FullRows(g)| + |FullCols(g)| == 1 ==> Scan(g).blocks == 5
    ensures |FullRows(g)| == 1 && |FullCols(g)| == 1 ==> Scan(g).blocks == 9
  {
  }

  /** Zeroing the reported cells leaves no full line behind (square board,
      at least one cell). */
  lemma ClearLeavesNoFullLine(g: Grid)
    requires g.cols == g.rows && g.cols > 0
    ensures FullRows(Zero(g, Scan(g).cells)) == {}
    ensures FullCols(Zero(g, Scan(g).cells)) == {}
    ensures Scan(Zero(g, Scan(g).cells)).lines == 0
  {
    var h := Zero(g, Scan(g).cells);
    forall r | 0 <= r < g.rows
      ensures !ScannedRowFull(h, r)
    {
      ClearedRowNotFull(g, r);
    }
    forall c | 0 <= c < g.cols
      ensures !ScannedColFull(h, c)
    {
      ClearedColNotFull(g, c);
    }
    assert FullRows(h) == {};
    assert FullCols(h) == {};
  }

  lemma ClearedRowNotFull(g: Grid, r: int)
    requires g.cols == g.rows && 0 <= r < g.rows
    ensures !ScannedRowFull(Zero(g, Scan(g).cells), r)
  {
    var cells := Scan(g).cells;
    if ScannedRowFull(g, r) {
      assert r in FullRows(g);
      assert (r, 0) in cells;
      ZeroedCellEmpty(g, cells, r, 0);
    } else {
      var c :| 0 <= c < g.cols && Get(g, r, c) <= 0;
      ZeroedGapStays(g, cells, r, c);
    }
  }

  lemma ClearedColNotFull(g: Grid, c: int)
    requires g.cols == g.rows && 0 <= c < g.cols
    ensures !ScannedColFull(Zero(g, Scan(g).cells), c)
  {
    var cells := Scan(g).cells;
    if ScannedColFull(g, c) {
      assert c in FullCols(g);
      assert (0, c) in cells;
      ZeroedCellEmpty(g, cells, 0, c);
    } else {
      var r :| 0 <= r < g.rows && Get(g, r, c) <= 0;
      ZeroedGapStays(g, cells, r, c);
    }
  }

  /** A zeroed cell reads as empty. */
  lemma ZeroedCellEmpty(g: Grid, cleared: set<(int, int)>, a: int, b: int)
    requires InBounds(g, a, b) && (a, b) in cleared
    ensures Get(Zero(g, cleared), a, b) == EMPTY
  {
  }

  /** A cell that was not occupied stays unoccupied after zeroing. */
  lemma ZeroedGapStays(g: Grid, cleared: set<(int, int)>, a: int, b: int)
    requires Get(g, a, b) <= 0
    ensures Get(Zero(g, cleared), a, b) <= 0
  {
  }
}

=== FILE: line_clear_variant.dfy ===
/** Line detection as the earlier grid does it. Each line is scanned by
    counting occupied cells and stops as soon as the count reaches the column
    count; every recorded line appends one coordinate per column to a list,
    so a cell where a recorded row meets a recorded column is listed twice,
    and the line count is the list length divided by five. */
module LineClearVariant {
  import opened Board
  import opened CellCount
  import opened LineClear

  /** The value the scan of line `k` reads at step `r`. The first loop reads
      `get(r, k)` (board row `k`), the second `get(k, r)` (board column `k`). */
  function Probe(g: Grid, horizontal: bool, k: int, r: int): int {
    if horizontal then Get(g, r, k) else Get(g, k, r)
  }

  /** Occupied cells among the first `n` steps of the scan of line `k`. */
  function Occupied(g: Grid, horizontal: bool, k: int, n: nat): (count: nat)
    ensures count <= n
  {
    if n == 0 then 0
    else Occupied(g, horizontal, k, n - 1) + if Probe(g, horizontal, k, n - 1) > 0 then 1 else 0
  }

  /** The scan of line `k` records it: over the `rows` steps the count of
      occupied cells reaches the column count. The test follows the
      increment, so a board without columns records nothing. */
  predicate Recorded(g: Grid, horizontal: bool, k: int) {
    g.cols >= 1 && Occupied(g, horizontal, k, g.rows) >= g.cols
  }

  lemma {:induction false} OccupiedMonotone(g: Grid, horizontal: bool, k: int, m: nat, n: nat)
    requires m <= n
    ensures Occupied(g, horizontal, k, m) <= Occupied(g, horizontal, k, n)
    decreases n - m
  {
    if m < n {
      OccupiedMonotone(g, horizontal, k, m, n - 1);
    }
  }

  /** The inner loop as written: count occupied cells, stop at the first
      step where the count equals the column count. */
  method ScanLine(g: Grid, horizontal: bool, k: int) returns (recorded: bool)
    ensures recorded == Recorded(g, horizontal, k)
  {
    var count := 0;
    var r := 0;
    recorded := false;
    while r < g.rows
      invariant 0 <= r <= g.rows
      invariant count == Occupied(g, horizontal, k, r)
      invariant g.cols == 0 || count < g.cols
    {
      if Probe(g, horizontal, k, r) > 0 {
        count := count + 1;
        if count == g.cols {
          OccupiedMonotone(g, horizontal, k, r + 1, g.rows);
          recorded := true;
          break;
        }
      }
      r := r + 1;
    }
  }

  /** The coordinates one recorded line appends: `(i, k)` for a row,
      `(k, i)` for a column, for every `i` below the column count. */
  function LineCoords(horizontal: bool, k: int, cols: nat): (s: seq<(int, int)>)
    ensures |s| == cols
    ensures forall i :: 0 <= i < cols ==> s[i] == if horizontal then (i, k) else (k, i)
  {
    seq(cols, i => if horizontal then (i, k) else (k, i))
  }

  /** The coordinates collected by the lines `0..n-1` of one loop. */
  function Collected(g: Grid, horizontal: bool, n: nat): seq<(int, int)> {
    if n == 0 then []
    else
      var line := if Recorded(g, horizontal, n - 1) then LineCoords(horizontal, n - 1, g.cols) else [];
      Collected(g, horizontal, n - 1) + line
  }

  /** How many of the lines `0..n-1` one loop records. */
  function RecordedCount(g: Grid, horizontal: bool, n: nat): nat {
    if n == 0 then 0
    else RecordedCount(g, horizontal, n - 1) + if Recorded(g, horizontal, n - 1) then 1 else 0
  }

  /** The two parallel coordinate lists, as one list of pairs: every
      recorded row, then every recorded column. */
  function Coords(g: Grid): seq<(int, int)> {
    Collected(g, true, g.cols) + Collected(g, false, g.cols)
  }

  /** What the variant reports: `x.size() / 5` lines and `x.size()` blocks. */
  datatype Report = Report(lines: nat, blocks: nat, coords: seq<(int, int)>)

  function ScanVariant(g: Grid): (r: Report)
    ensures r.blocks == |r.coords| && r.lines == r.blocks / 5
    ensures r.blocks == g.cols * (RecordedCount(g, true, g.cols) + RecordedCount(g, false, g.cols))
    ensures r.coords == [] <==> g.cols == 0 || RecordedCount(g, true, g.cols) + RecordedCount(g, false, g.cols) == 0
  {
    var rows, cols := RecordedCount(g, true, g.cols), RecordedCount(g, false, g.cols);
    CollectedSize(g, true, g.cols);
    CollectedSize(g, false, g.cols);
    MulAdd(g.cols, rows, cols);
    MulZero(g.cols, rows + cols);
    var coords := Coords(g);
    Report(|coords| / 5, |coords|, coords)
  }

  lemma {:induction false} CollectedSize(g: Grid, horizontal: bool, n: nat)
    ensures |Collected(g, horizontal, n)| == g.cols * RecordedCount(g, horizontal, n)
  {
    if n > 0 {
      CollectedSize(g, horizontal, n - 1);
      if Recorded(g, horizontal, n - 1) {
        MulAdd(g.cols, RecordedCount(g, horizontal, n - 1), 1);
      }
    }
  }

  lemma MulAdd(a: nat, b: nat, c: nat)
    ensures a * (b + c) == a * b + a * c
  {
  }

  lemma MulZero(a: nat, b: nat)
    ensures a * b == 0 <==> a == 0 || b == 0
  {
    if a > 0 && b > 0 {
      assert a * b >= b;
    }
  }

  lemma {:induction false} CollectedMembers(g: Grid, horizontal: bool, n: nat)
    ensures forall a, b :: (a, b) in Collected(g, horizontal, n) <==>
      if horizontal then 0 <= a < g.cols && 0 <= b < n && Recorded(g, true, b)
      else 0 <= a < n && 0 <= b < g.cols && Recorded(g, false, a)
  {
    if n > 0 {
      CollectedMembers(g, horizontal, n - 1);
      LineCoordsMembers(horizontal, n - 1, g.cols);
    }
  }

  lemma LineCoordsMembers(horizontal: bool, k: int, cols: nat)
    ensures forall a, b :: (a, b) in LineCoords(horizontal, k, cols) <==>
      if horizontal then 0 <= a < cols && b == k else a == k && 0 <= b < cols
  {
    var line := LineCoords(horizontal, k, cols);
    forall a, b ensures (a, b) in line <==>
      if horizontal then 0 <= a < cols && b == k else a == k && 0 <= b < cols
    {
      if horizontal && 0 <= a < cols && b == k {
        assert line[a] == (a, b);
      }
      if !horizontal && a == k && 0 <= b < cols {
        assert line[b] == (a, b);
      }
    }
  }

  /** All `n` steps of a scan are occupied exactly when the count reaches
      `n`. */
  lemma {:induction false} OccupiedAll(g: Grid, horizontal: bool, k: int, n: nat)
    ensures Occupied(g, horizontal, k, n) == n <==> forall r :: 0 <= r < n ==> Probe(g, horizontal, k, r) > 0
  {
    if n > 0 {
      OccupiedAll(g, horizontal, k, n - 1);
    }
  }

  /** On a square board a line is recorded exactly when the other grid's
      scan finds it full: a row scan here is a column scan there, and the
      other way round. */
  lemma RecordedIsFull(g: Grid, k: int)
    requires g.cols == g.rows
    ensures Recorded(g, true, k) <==> g.cols >= 1 && ScannedColFull(g, k)
    ensures Recorded(g, false, k) <==> g.cols >= 1 && ScannedRowFull(g, k)
  {
    OccupiedAll(g, true, k, g.rows);
    OccupiedAll(g, false, k, g.rows);
    assert forall r :: Probe(g, true, k, r) == Get(g, r, k);
    assert forall r :: Probe(g, false, k, r) == Get(g, k, r);
  }

  /** On a square board the variant lists exactly the cells the other grid
      reports, only some of them twice. */
  lemma SameCellsOnSquareBoard(g: Grid)
    requires g.cols == g.rows
    ensures forall a, b :: (a, b) in ScanVariant(g).coords <==> (a, b) in Scan(g).cells
  {
    CollectedMembers(g, true, g.cols);
    CollectedMembers(g, false, g.cols);
    forall k {
      RecordedIsFull(g, k);
    }
  }

  /** Counting recorded lines counts the full lines of the other scan. */
  lemma {:induction false} RecordedCountIsCrossings(g: Grid, n: nat)
    requires g.cols == g.rows
    ensures RecordedCount(g, true, n) == Crossings(FullCols(g), n)
    ensures RecordedCount(g, false, n) == Crossings(FullRows(g), n)
  {
    if n > 0 {
      RecordedCountIsCrossings(g, n - 1);
      RecordedIsFull(g, n - 1);
    }
  }

  /** On the 5x5 board the variant's line count is the true one, and its
      block count exceeds the distinct cleared cells by the number of
      row/column crossings, each listed twice. */
  lemma FiveByFiveVariant(g: Grid)
    requires g.cols == 5 && g.rows == 5
    ensures ScanVariant(g).lines == Scan(g).lines
    ensures ScanVariant(g).blocks == Scan(g).blocks + |FullRows(g)| * |FullCols(g)|
  {
    RecordedCountIsCrossings(g, 5);
    CrossingsAll(FullCols(g), 5);
    CrossingsAll(FullRows(g), 5);
  }

  /** A full row together with a full column on the 5x5 board: the variant
      reports 10 blocks and 2 lines where the other grid reports 9 cells. */
  lemma RowAndColumnCountTwice(g: Grid)
    requires g.cols == 5 && g.rows == 5
    requires |FullRows(g)| == 1 && |FullCols(g)| == 1
    ensures ScanVariant(g).blocks == 10 && ScanVariant(g).lines == 2
    ensures Scan(g).blocks == 9
  {
    FiveByFiveVariant(g);
  }

  /** With three columns, one full row gives a list of three coordinates
      and so no line at all: `x.size() / 5` counts lines only on a 5-column
      board. */
  lemma ThreeColumnsMiscount()
    ensures var g: Grid := Cells(3, 3, seq(3, x => seq(3, y => if y == 0 then 1 else 0)));
      RecordedCount(g, true, 3) + RecordedCount(g, false, 3) == 1 && ScanVariant(g).lines == 0
  {
    var g: Grid := Cells(3, 3, seq(3, x => seq(3, y => if y == 0 then 1 else 0)));
    OccupiedAll(g, true, 0, 3);
    assert Recorded(g, true, 0);
    forall k | 0 <= k < 3
      ensures !Recorded(g, false, k)
    {
      OccupiedAll(g, false, k, 3);
      assert Probe(g, false, k, 1) == 0;
    }
    forall k | 1 <= k < 3
      ensures !Recorded(g, true, k)
    {
      OccupiedAll(g, true, k, 3);
      assert Probe(g, true, k, 0) == 0;
    }
    assert RecordedCount(g, true, 1) == 1;
    assert RecordedCount(g, true, 2) == 1;
    assert RecordedCount(g, true, 3) == 1;
    assert RecordedCount(g, false, 1) == 0;
    assert RecordedCount(g, false, 2) == 0;
    assert RecordedCount(g, false, 3) == 0;
    assert ScanVariant(g).blocks == 3;
  }
}

=== FILE: piece_board.dfy ===
/** The 3x3 preview of the current and the following piece. Showing a piece
    clears the preview, copies the footprint's occupied entries in the
    piece's value, and then marks the centre cell with 1. */
module PieceBoard {
  import opened Board
  import opened Pieces
  import opened Placement

  /** The preview's own board, always 3 columns by 3 rows. */
  type Preview = g: Grid | g.cols == SIZE && g.rows == SIZE witness New(3, 3)

  /** The value the centre cell is forced to after a piece is shown. */
  const CENTRE_MARK: int := 1

  /** `clearGrid`: every cell set to 0, row by row. */
  method ClearGrid(b: Preview) returns (r: Preview)
    ensures r == New(SIZE, SIZE)
  {
    r := b;
    var i := 0;
    while i < SIZE
      invariant 0 <= i <= SIZE
      invariant forall x, y :: InBounds(r, x, y) ==> r.cells[x][y] == if y < i then EMPTY else b.cells[x][y]
    {
      var j := 0;
      while j < SIZE
        invariant 0 <= j <= SIZE
        invariant forall x, y :: InBounds(r, x, y) ==>
          r.cells[x][y] == if y < i || (y == i && x < j) then EMPTY else b.cells[x][y]
      {
        r := Set(r, j, i, EMPTY);
        j := j + 1;
      }
      i := i + 1;
    }
    Extensionality(r, New(SIZE, SIZE));
  }

  /** What the preview shows for `p`, stated through the game's own
      placement: the piece played centred on an empty 3x3 board, then the
      centre marked. */
  function Shown(p: GamePiece): (r: Preview)
    ensures r.cells[1][1] == CENTRE_MARK
  {
    CentredFits(p);
    Set(PlayPiece(New(SIZE, SIZE), p, 1, 1).grid, 1, 1, CENTRE_MARK)
  }

  /** A piece centred on a 3x3 board lies entirely on it, and covers
      exactly the cells its footprint occupies. */
  lemma CentredFits(p: GamePiece)
    ensures OnBoard(New(SIZE, SIZE), p, 1, 1)
    ensures forall a, b :: 0 <= a < SIZE && 0 <= b < SIZE ==> (Covers(p, 1, 1, a, b) <==> p.blocks[a][b] >= 1)
  {
  }

  /** `addPieceToGrid`: clear, copy the occupied footprint entries in the
      piece's value, then mark the centre. */
  method AddPieceToGrid(b: Preview, p: GamePiece) returns (r: Preview)
    ensures r == Shown(p)
    ensures r.cells[1][1] == CENTRE_MARK
    ensures forall x, y :: InBounds(r, x, y) && (x != 1 || y != 1) ==>
      r.cells[x][y] == if p.blocks[x][y] >= 1 then p.value else EMPTY
  {
    r := ClearGrid(b);
    r := CopyFootprint(r, p);
    r := Set(r, 1, 1, CENTRE_MARK);
    forall x, y | InBounds(r, x, y)
      ensures r.cells[x][y] == Shown(p).cells[x][y]
    {
      ShownCells(p, x, y);
    }
    Extensionality(r, Shown(p));
  }

  /** The copy loop of `addPieceToGrid` on a cleared preview, rows outer
      and columns inner. */
  method CopyFootprint(cleared: Preview, p: GamePiece) returns (r: Preview)
    requires cleared == New(SIZE, SIZE)
    ensures forall x, y :: InBounds(r, x, y) ==>
      r.cells[x][y] == if p.blocks[x][y] >= 1 then p.value else EMPTY
  {
    r := cleared;
    var i := 0;
    while i < SIZE
      invariant 0 <= i <= SIZE
      invariant forall x, y :: InBounds(r, x, y) ==>
        r.cells[x][y] == if y < i && p.blocks[x][y] >= 1 then p.value else EMPTY
    {
      var j := 0;
      while j < SIZE
        invariant 0 <= j <= SIZE
        invariant forall x, y :: InBounds(r, x, y) ==>
          r.cells[x][y] == if (y < i || (y == i && x < j)) && p.blocks[x][y] >= 1 then p.value else EMPTY
      {
        if p.blocks[j][i] >= 1 {
          r := Set(r, j, i, p.value);
        }
        j := j + 1;
      }
      i := i + 1;
    }
  }

  /** The preview of `p`, cell by cell: the centre is marked, every other
      cell shows the piece's value where the footprint is occupied and is
      empty elsewhere. */
  lemma ShownCells(p: GamePiece, x: int, y: int)
    requires 0 <= x < SIZE && 0 <= y < SIZE
    ensures Shown(p).cells[x][y] == if x == 1 && y == 1 then CENTRE_MARK
      else if p.blocks[x][y] >= 1 then p.value else EMPTY
  {
    CentredFits(p);
  }

  /** The footprint's centre entry never shows: two pieces that differ only
      there have the same preview. */
  lemma CentreEntryHidden(p: GamePiece, q: GamePiece)
    requires p.value == q.value
    requires forall x, y :: 0 <= x < SIZE && 0 <= y < SIZE && (x != 1 || y != 1) ==>
      (p.blocks[x][y] >= 1 <==> q.blocks[x][y] >= 1)
    ensures Shown(p) == Shown(q)
  {
    forall x, y | 0 <= x < SIZE && 0 <= y < SIZE
      ensures Shown(p).cells[x][y] == Shown(q).cells[x][y]
    {
      ShownCells(p, x, y);
      ShownCells(q, x, y);
    }
    Extensionality(Shown(p), Shown(q));
  }

  /** Apart from the centre, the preview of a piece whose value is not 0
      determines which footprint entries are occupied. */
  lemma ShownRevealsFootprint(p: GamePiece, q: GamePiece)
    requires p.value == q.value && p.value != EMPTY
    requires Shown(p) == Shown(q)
    ensures forall x, y :: 0 <= x < SIZE && 0 <= y < SIZE && (x != 1 || y != 1) ==>
      (p.blocks[x][y] >= 1 <==> q.blocks[x][y] >= 1)
  {
    forall x, y | 0 <= x < SIZE && 0 <= y < SIZE && (x != 1 || y != 1)
      ensures p.blocks[x][y] >= 1 <==> q.blocks[x][y] >= 1
    {
      ShownCells(p, x, y);
      ShownCells(q, x, y);
    }
  }
}

=== FILE: pieces.dfy ===
/** Pieces as the engine sees them: a 3x3 footprint of integers, read as
    `blocks[j][i]` with `j` the column and `i` the row of the footprint, plus
    the value written into the board. The concrete shapes and their rotation
    live outside this model. */
module Pieces {
  import opened Board

  const SIZE: int := 3
  /** Number of piece kinds `spawnPiece` draws from. */
  const KINDS: int := 15

  datatype Piece = Piece(blocks: seq<seq<int>>, value: int)

  predicate Is3x3(p: Piece) {
    |p.blocks| == SIZE && forall j :: 0 <= j < |p.blocks| ==> |p.blocks[j]| == SIZE
  }

  type GamePiece = p: Piece | Is3x3(p) witness Piece([[0, 0, 0], [0, 0, 0], [0, 0, 0]], 0)

  /** The pieces `createPiece` builds for kinds 0..14, in kind order. */
  type Catalog = c: seq<GamePiece> | |c| == KINDS
    witness seq(15, _ => Piece([[0, 0, 0], [0, 0, 0], [0, 0, 0]], 0))

  /** Every piece the catalog can produce carries a colour value. */
  predicate Coloured(c: Catalog) {
    forall k :: 0 <= k < |c| ==> IsColour(c[k].value)
  }
}

=== FILE: placement.dfy ===
/** Placing a piece on the board. The 3x3 footprint is centred on the
    chosen cell: footprint entry (j, i) lands on board cell (x + j - 1,
    y + i - 1). */
module Placement {
  import opened Board
  import opened Pieces

  /** Footprint entry (j, i) stops the placement: it is part of the piece
      and the board reads a positive value other than the cursor marker
      where it lands. A landing cell off the board reads -1 and so never
      stops anything. */
  predicate Blocks(g: Grid, p: GamePiece, x: int, y: int, j: int, i: int)
    requires 0 <= j < SIZE && 0 <= i < SIZE
  {
    p.blocks[j][i] > 0 && Get(g, x + j - 1, y + i - 1) > 0 && Get(g, x + j - 1, y + i - 1) != CURSOR
  }

  /** `canPlayPiece`: no footprint entry is blocked. Only landing cells on
      the board are examined, and there a cell is free when it is empty (or
      negative) or holds the cursor marker. */
  function CanPlayPiece(g: Grid, p: GamePiece, x: int, y: int): (ok: bool)
    ensures ok <==> forall j, i ::
      (0 <= j < SIZE && 0 <= i < SIZE && p.blocks[j][i] > 0 && InBounds(g, x + j - 1, y + i - 1)) ==>
        g.cells[x + j - 1][y + i - 1] <= EMPTY || g.cells[x + j - 1][y + i - 1] == CURSOR
  {
    assert forall j, i | 0 <= j < SIZE && 0 <= i < SIZE :: Blocks(g, p, x, y, j, i) <==>
      (p.blocks[j][i] > 0 && InBounds(g, x + j - 1, y + i - 1)
       && !(g.cells[x + j - 1][y + i - 1] <= EMPTY || g.cells[x + j - 1][y + i - 1] == CURSOR));
    forall j, i | 0 <= j < SIZE && 0 <= i < SIZE :: !Blocks(g, p, x, y, j, i)
  }

  /** The check as the source runs it: rows of the footprint outer, columns
      inner, returning at the first blocked entry. */
  method CheckPlacement(g: Grid, p: GamePiece, x: int, y: int) returns (ok: bool)
    ensures ok == CanPlayPiece(g, p, x, y)
  {
    var i := 0;
    while i < SIZE
      invariant 0 <= i <= SIZE
      invariant forall i', j' :: 0 <= i' < i && 0 <= j' < SIZE ==> !Blocks(g, p, x, y, j', i')
    {
      var j := 0;
      while j < SIZE
        invariant 0 <= j <= SIZE
        invariant forall i', j' :: 0 <= i' < i && 0 <= j' < SIZE ==> !Blocks(g, p, x, y, j', i')
        invariant forall j' :: 0 <= j' < j ==> !Blocks(g, p, x, y, j', i)
      {
        if p.blocks[j][i] > 0 && Get(g, x + j - 1, y + i - 1) > 0 && Get(g, x + j - 1, y + i - 1) != CURSOR {
          return false;
        }
        j := j + 1;
      }
      i := i + 1;
    }
    return true;
  }

  /** Board cell (a, b) lies under a part of the piece (an entry >= 1). */
  predicate Covers(p: GamePiece, x: int, y: int, a: int, b: int) {
    0 <= a - x + 1 < SIZE && 0 <= b - y + 1 < SIZE && p.blocks[a - x + 1][b - y + 1] >= 1
  }

  /** Cell (a, b) is covered by an entry the write loop reaches at or after
      footprint position (i0, j0), rows outer and columns inner. */
  predicate CoversFrom(p: GamePiece, x: int, y: int, i0: int, j0: int, a: int, b: int) {
    Covers(p, x, y, a, b) && (b - y + 1 > i0 || (b - y + 1 == i0 && a - x + 1 >= j0))
  }

  /** Every part of the piece from position (i0, j0) on lands on the board. */
  predicate OnBoardFrom(g: Grid, p: GamePiece, x: int, y: int, i0: int, j0: int) {
    forall j, i :: 0 <= j < SIZE && 0 <= i < SIZE && (i > i0 || (i == i0 && j >= j0)) && p.blocks[j][i] >= 1 ==>
      InBounds(g, x + j - 1, y + i - 1)
  }

  /** Every part of the piece lands on the board. */
  predicate OnBoard(g: Grid, p: GamePiece, x: int, y: int) {
    OnBoardFrom(g, p, x, y, 0, 0)
  }

  /** Outcome of `playPiece`: the board after all writes, or the board as
      left when a write fell off it and the array-index exception escaped. */
  datatype PlayResult = Played(grid: Grid) | OutOfBounds(grid: Grid)

  /** The write loop of `playPiece` from footprint position (i, j) on, rows
      outer and columns inner; a write off the board stops it. */
  function PlayFrom(g: Grid, p: GamePiece, x: int, y: int, i: int, j: int): (r: PlayResult)
    requires 0 <= i <= SIZE && 0 <= j <= SIZE
    ensures SameShape(r.grid, g)
    decreases SIZE - i, SIZE - j
  {
    if i == SIZE then Played(g)
    else if j == SIZE then PlayFrom(g, p, x, y, i + 1, 0)
    else if p.blocks[j][i] >= 1 then
      if InBounds(g, x + j - 1, y + i - 1) then
        PlayFrom(Set(g, x + j - 1, y + i - 1, p.value), p, x, y, i, j + 1)
      else
        OutOfBounds(g)
    else
      PlayFrom(g, p, x, y, i, j + 1)
  }

  /** The loop runs to the end exactly when every remaining part of the
      piece lands on the board. */
  lemma {:induction false} PlayFromSucceeds(g: Grid, p: GamePiece, x: int, y: int, i: int, j: int)
    requires 0 <= i <= SIZE && 0 <= j <= SIZE
    ensures PlayFrom(g, p, x, y, i, j).Played? <==> OnBoardFrom(g, p, x, y, i, j)
    decreases SIZE - i, SIZE - j
  {
    if i == SIZE {
    } else if j == SIZE {
      PlayFromSucceeds(g, p, x, y, i + 1, 0);
    } else if p.blocks[j][i] >= 1 {
      if InBounds(g, x + j - 1, y + i - 1) {
        var h := Set(g, x + j - 1, y + i - 1, p.value);
        PlayFromSucceeds(h, p, x, y, i, j + 1);
        assert OnBoardFrom(h, p, x, y, i, j + 1) == OnBoardFrom(g, p, x, y, i, j + 1);
      }
    } else {
      PlayFromSucceeds(g, p, x, y, i, j + 1);
    }
  }

  /** A loop that runs to the end has written the piece's value into exactly
      the cells the remaining parts cover. */
  lemma {:induction false} PlayFromWrites(g: Grid, p: GamePiece, x: int, y: int, i: int, j: int)
    requires 0 <= i <= SIZE && 0 <= j <= SIZE
    ensures var r := PlayFrom(g, p, x, y, i, j);
      r.Played? ==> forall a, b :: InBounds(g, a, b) ==>
        r.grid.cells[a][b] == if CoversFrom(p, x, y, i, j, a, b) then p.value else g.cells[a][b]
    decreases SIZE - i, SIZE - j
  {
    if i == SIZE {
    } else if j == SIZE {
      PlayFromWrites(g, p, x, y, i + 1, 0);
    } else if p.blocks[j][i] >= 1 {
      if InBounds(g, x + j - 1, y + i - 1) {
        PlayFromWrites(Set(g, x + j - 1, y + i - 1, p.value), p, x, y, i, j + 1);
      }
    } else {
      PlayFromWrites(g, p, x, y, i, j + 1);
    }
  }

  /** A loop stopped by a write off the board has changed only cells the
      remaining parts cover, to the piece's value. */
  lemma {:induction false} PlayFromPartial(g: Grid, p: GamePiece, x: int, y: int, i: int, j: int)
    requires 0 <= i <= SIZE && 0 <= j <= SIZE
    ensures var r := PlayFrom(g, p, x, y, i, j);
      r.OutOfBounds? ==> forall a, b :: InBounds(g, a, b) ==>
        r.grid.cells[a][b] == g.cells[a][b] || (CoversFrom(p, x, y, i, j, a, b) && r.grid.cells[a][b] == p.value)
    decreases SIZE - i, SIZE - j
  {
    if i == SIZE {
    } else if j == SIZE {
      PlayFromPartial(g, p, x, y, i + 1, 0);
    } else if p.blocks[j][i] >= 1 {
      if InBounds(g, x + j - 1, y + i - 1) {
        PlayFromPartial(Set(g, x + j - 1, y + i - 1, p.value), p, x, y, i, j + 1);
      }
    } else {
      PlayFromPartial(g, p, x, y, i, j + 1);
    }
  }

  /** `playPiece`: write the piece's value into every cell it covers. */
  function PlayPiece(g: Grid, p: GamePiece, x: int, y: int): (r: PlayResult)
    ensures SameShape(r.grid, g)
    ensures r.Played? <==> OnBoard(g, p, x, y)
    ensures r.Played? ==> forall a, b :: InBounds(g, a, b) ==>
      r.grid.cells[a][b] == if Covers(p, x, y, a, b) then p.value else g.cells[a][b]
    ensures r.OutOfBounds? ==> forall a, b :: InBounds(g, a, b) ==>
      r.grid.cells[a][b] == g.cells[a][b] || (Covers(p, x, y, a, b) && r.grid.cells[a][b] == p.value)
  {
    PlayFromSucceeds(g, p, x, y, 0, 0);
    PlayFromWrites(g, p, x, y, 0, 0);
    PlayFromPartial(g, p, x, y, 0, 0);
    PlayFrom(g, p, x, y, 0, 0)
  }

  /** An accepted placement never overwrites a piece colour: every cell the
      piece covers was empty or held the cursor marker. */
  lemma AcceptedPlacementKeepsBoard(g: Grid, p: GamePiece, x: int, y: int)
    requires CanPlayPiece(g, p, x, y) && OnBoard(g, p, x, y)
    ensures PlayPiece(g, p, x, y).Played?
    ensures forall a, b :: InBounds(g, a, b) && Covers(p, x, y, a, b) ==>
      g.cells[a][b] <= EMPTY || g.cells[a][b] == CURSOR
    ensures forall a, b :: InBounds(g, a, b) && g.cells[a][b] > EMPTY && g.cells[a][b] != CURSOR ==>
      PlayPiece(g, p, x, y).grid.cells[a][b] == g.cells[a][b]
  {
    forall a, b | InBounds(g, a, b) && Covers(p, x, y, a, b)
      ensures g.cells[a][b] <= EMPTY || g.cells[a][b] == CURSOR
    {
      var j, i := a - x + 1, b - y + 1;
      assert x + j - 1 == a && y + i - 1 == b;
    }
  }

  /** A piece with every footprint entry set. */
  const SOLID: GamePiece := Piece([[1, 1, 1], [1, 1, 1], [1, 1, 1]], 1)

  /** `canPlayPiece` does not make `playPiece` safe: centred on a corner of
      an empty 5x5 board, the solid piece is accepted although five of its
      cells fall off the board, and the write then fails. */
  lemma CanPlayAcceptsOffBoard()
    ensures CanPlayPiece(New(5, 5), SOLID, 0, 0)
    ensures !OnBoard(New(5, 5), SOLID, 0, 0)
    ensures PlayPiece(New(5, 5), SOLID, 0, 0).OutOfBounds?
  {
    assert SOLID.blocks[0][0] >= 1;
    assert !InBounds(New(5, 5), -1, -1);
  }
}

=== FILE: scores.dfy ===
/** The high-score table: a text file of `name:score` lines, loaded into a
    list sorted by score, highest first, and extended with a new line after
    a game. */
module Scores {
  import opened JavaInt
  import opened JavaText

  datatype Entry = Entry(name: string, score: int)

  // ---------------------------------------------------------------------
  // One line

  /** Why a line does not load: `split` gave no second part (the index
      exception), or that part is not a number (the number-format
      exception). */
  datatype LineError = MissingScore | BadNumber

  datatype Parsed = Ok(entry: Entry) | Error(reason: LineError)

  /** One line of the file: split at ':', the first part is the name, the
      second the score; any further parts are ignored. */
  function ParseLine(line: string): (r: Parsed)
    ensures ':' !in line ==> r == Error(MissingScore)
    ensures r.Ok? ==> IsInt32(r.entry.score) && ':' !in r.entry.name
    ensures r.Ok? ==> var n := |r.entry.name|; n < |line| && line[..n] == r.entry.name && line[n] == ':'
    ensures r == Error(MissingScore) <==> |Split(line, ':')| < 2
    ensures |Split(line, ':')| >= 2 ==>
      (r.Ok? <==> ParseInt(Split(line, ':')[1]).Some?) && (r.Error? ==> r.reason == BadNumber)
    ensures r.Ok? ==> |Split(line, ':')| >= 2 && Some(r.entry.score) == ParseInt(Split(line, ':')[1])
  {
    var parts := Split(line, ':');
    if |parts| < 2 then Error(MissingScore)
    else
      SplitHeadIsPrefix(line, ':');
      match ParseInt(parts[1])
      case None => Error(BadNumber)
      case Some(n) => Ok(Entry(parts[0], n))
  }

  /** The line `writeScores` appends for a player: the name, ':', and the
      score in decimal. */
  function Record(name: string, score: int): (line: string)
    ensures |line| > 0 && ':' in line && IsDigit(line[|line| - 1])
    ensures NoTerminator(name) ==> NoTerminator(line)
  {
    var digits := IntToString(score);
    assert IsDigit(digits[|digits| - 1]);
    var line := name + ":" + digits;
    assert line[|name|] == ':';
    line
  }

  /** A record reads back as the entry it was written from, as long as the
      name holds no ':' and the score fits in an `int`. */
  lemma ParseRecord(name: string, score: int)
    requires ':' !in name && IsInt32(score)
    ensures ParseLine(Record(name, score)) == Ok(Entry(name, score))
  {
    var digits := IntToString(score);
    assert ':' !in digits by {
      if score < 0 {
        assert forall i :: 1 <= i < |digits| ==> IsDigit(digits[i]) by {
          assert AllDigits(digits[1..]);
        }
      }
    }
    assert Record(name, score) == name + [':'] + digits;
    SplitOfPair(name, ':', digits);
    ParseIntToString(score);
  }

  // ---------------------------------------------------------------------
  // Many lines

  /** The entries read before the first line that fails, and whether every
      line loaded. */
  datatype Reading = Reading(entries: seq<Entry>, complete: bool)

  /** The loop of `loadScores`: lines are read in order and each one's
      entry is added, until a line fails. */
  function ParseLines(lines: seq<string>): (r: Reading)
    ensures |r.entries| <= |lines|
    ensures r.complete <==> |r.entries| == |lines|
    decreases |lines|
  {
    if |lines| == 0 then Reading([], true)
    else
      var prev := ParseLines(lines[..|lines| - 1]);
      if !prev.complete then prev
      else
        match ParseLine(lines[|lines| - 1])
        case Error(_) => Reading(prev.entries, false)
        case Ok(e) => Reading(prev.entries + [e], true)
  }

  /** The entries read are those of the leading lines, in order, and a
      reading stops short only at a line that fails. */
  lemma {:induction false} ParseLinesReadsPrefix(lines: seq<string>)
    ensures ReadsPrefix(lines, ParseLines(lines))
    decreases |lines|
  {
    if |lines| > 0 {
      ParseLinesReadsPrefix(lines[..|lines| - 1]);
      ReadsPrefixStep(lines);
    }
  }

  /** `r` holds the entries of the leading lines of `lines`, in order, and
      when it is incomplete the line after them fails. */
  predicate ReadsPrefix(lines: seq<string>, r: Reading) {
    |r.entries| <= |lines|
    && (forall i :: 0 <= i < |r.entries| ==> ParseLine(lines[i]) == Ok(r.entries[i]))
    && (!r.complete ==> |r.entries| < |lines| && ParseLine(lines[|r.entries|]).Error?)
  }

  /** Reading one more line keeps the reading a prefix of the lines. */
  lemma ReadsPrefixStep(lines: seq<string>)
    requires |lines| > 0
    requires ReadsPrefix(lines[..|lines| - 1], ParseLines(lines[..|lines| - 1]))
    ensures ReadsPrefix(lines, ParseLines(lines))
  {
    var init, last := lines[..|lines| - 1], lines[|lines| - 1];
    var prev := ParseLines(init);
    if !prev.complete {
      assert ParseLines(lines) == prev;
      KeepsPrefix(init, lines, prev.entries);
      assert lines[|prev.entries|] == init[|prev.entries|];
    } else if ParseLine(last).Error? {
      assert ParseLines(lines) == Reading(prev.entries, false);
      KeepsPrefix(init, lines, prev.entries);
    } else {
      var e := ParseLine(last).entry;
      assert ParseLines(lines) == Reading(prev.entries + [e], true);
      AppendKeepsPrefix(init, lines, prev.entries, e);
    }
  }

  /** Entries read from the leading lines still match once more lines
      follow. */
  lemma KeepsPrefix(init: seq<string>, lines: seq<string>, entries: seq<Entry>)
    requires init <= lines && |entries| <= |init|
    requires forall i :: 0 <= i < |entries| ==> ParseLine(init[i]) == Ok(entries[i])
    ensures forall i :: 0 <= i < |entries| ==> ParseLine(lines[i]) == Ok(entries[i])
  {
    forall i | 0 <= i < |entries|
      ensures ParseLine(lines[i]) == Ok(entries[i])
    {
      assert lines[i] == init[i];
    }
  }

  /** The entry of the line after them extends the match. */
  lemma AppendKeepsPrefix(init: seq<string>, lines: seq<string>, entries: seq<Entry>, e: Entry)
    requires |lines| > 0 && init == lines[..|lines| - 1] && |entries| == |init|
    requires forall i :: 0 <= i < |entries| ==> ParseLine(init[i]) == Ok(entries[i])
    requires ParseLine(lines[|lines| - 1]) == Ok(e)
    ensures forall i :: 0 <= i < |entries + [e]| ==> ParseLine(lines[i]) == Ok((entries + [e])[i])
  {
    forall i | 0 <= i < |entries + [e]|
      ensures ParseLine(lines[i]) == Ok((entries + [e])[i])
    {
      if i < |entries| {
        assert lines[i] == init[i];
        assert (entries + [e])[i] == entries[i];
      } else {
        assert i == |lines| - 1;
        assert (entries + [e])[i] == e;
      }
    }
  }

  /** One more good line at the end adds its entry at the end. */
  lemma ParseLinesAppend(lines: seq<string>, line: string)
    requires ParseLines(lines).complete && ParseLine(line).Ok?
    ensures ParseLines(lines + [line]) == Reading(ParseLines(lines).entries + [ParseLine(line).entry], true)
  {
    assert (lines + [line])[..|lines|] == lines;
  }

  // ---------------------------------------------------------------------
  // Sorting

  /** Highest score first. */
  predicate Sorted(s: seq<Entry>) {
    forall i, j :: 0 <= i < j < |s| ==> s[i].score >= s[j].score
  }

  /** The entries of `s` with score `v`, in their order in `s`. */
  function WithScore(s: seq<Entry>, v: int): seq<Entry> {
    if |s| == 0 then []
    else (if s[0].score == v then [s[0]] else []) + WithScore(s[1..], v)
  }

  lemma {:induction false} WithScoreMembers(s: seq<Entry>, v: int)
    ensures forall e :: e in WithScore(s, v) <==> e in s && e.score == v
  {
    if |s| > 0 {
      WithScoreMembers(s[1..], v);
      assert s == [s[0]] + s[1..];
    }
  }

  /** `e` goes in front of the first entry it scores at least as high as,
      so it comes before the entries with its own score. */
  function Insert(e: Entry, s: seq<Entry>): (r: seq<Entry>)
    ensures |r| == |s| + 1
  {
    if |s| == 0 || s[0].score <= e.score then [e] + s
    else [s[0]] + Insert(e, s[1..])
  }

  /** Inserting adds `e` and keeps every other entry. */
  lemma {:induction false} InsertPermutes(e: Entry, s: seq<Entry>)
    ensures multiset(Insert(e, s)) == multiset(s) + multiset{e}
  {
    if |s| > 0 && s[0].score > e.score {
      InsertPermutes(e, s[1..]);
      assert s == [s[0]] + s[1..];
    }
  }

  lemma {:induction false} InsertSorted(e: Entry, s: seq<Entry>)
    requires Sorted(s)
    ensures Sorted(Insert(e, s))
    decreases |s|, 1
  {
    if |s| > 0 && s[0].score > e.score {
      InsertSortedBehind(e, s);
    }
  }

  /** Inserting behind the head: the head stays first, ahead of everything
      inserted into the tail. */
  lemma {:induction false} InsertSortedBehind(e: Entry, s: seq<Entry>)
    requires Sorted(s) && |s| > 0 && s[0].score > e.score
    ensures Sorted(Insert(e, s))
    decreases |s|, 0
  {
    var t := s[1..];
    InsertSorted(e, t);
    InsertBounded(e, t, s[0].score);
    SortedCons(s[0], Insert(e, t));
  }

  /** Inserting an entry no higher than `b` among entries no higher than
      `b` yields entries no higher than `b`. */
  lemma InsertBounded(e: Entry, s: seq<Entry>, b: int)
    requires e.score <= b && forall i :: 0 <= i < |s| ==> s[i].score <= b
    ensures forall i :: 0 <= i < |Insert(e, s)| ==> Insert(e, s)[i].score <= b
  {
    var r := Insert(e, s);
    InsertPermutes(e, s);
    forall i | 0 <= i < |r|
      ensures r[i].score <= b
    {
      assert r[i] in multiset(r);
      if r[i] != e {
        assert r[i] in multiset(s);
      }
    }
  }

  /** A head no lower than a sorted tail keeps the sequence sorted. */
  lemma SortedCons(h: Entry, t: seq<Entry>)
    requires Sorted(t) && forall i :: 0 <= i < |t| ==> t[i].score <= h.score
    ensures Sorted([h] + t)
  {
    var r := [h] + t;
    forall i, j | 0 <= i < j < |r|
      ensures r[i].score >= r[j].score
    {
      assert r[j] == t[j - 1];
      if i > 0 {
        assert r[i] == t[i - 1];
      }
    }
  }

  lemma {:induction false} InsertWithScore(e: Entry, s: seq<Entry>, v: int)
    ensures WithScore(Insert(e, s), v) == (if e.score == v then [e] else []) + WithScore(s, v)
  {
    if |s| > 0 && s[0].score > e.score {
      InsertWithScore(e, s[1..], v);
      var r := Insert(e, s);
      assert r[1..] == Insert(e, s[1..]);
    }
  }

  /** `sortScores`: a stable sort, highest score first (the list sort keeps
      entries that compare equal in their order). */
  function SortScores(s: seq<Entry>): (r: seq<Entry>)
    ensures |r| == |s|
  {
    if |s| == 0 then [] else Insert(s[0], SortScores(s[1..]))
  }

  /** Sorting keeps every entry, as often as it occurs. */
  lemma {:induction false} SortScoresPermutes(s: seq<Entry>)
    ensures multiset(SortScores(s)) == multiset(s)
  {
    if |s| > 0 {
      SortScoresPermutes(s[1..]);
      InsertPermutes(s[0], SortScores(s[1..]));
      assert s == [s[0]] + s[1..];
    }
  }

  /** The sorted list is in order and keeps, for every score, the entries
      with that score in their original order. */
  lemma {:induction false} SortScoresIsStableSort(s: seq<Entry>)
    ensures Sorted(SortScores(s))
    ensures forall v :: WithScore(SortScores(s), v) == WithScore(s, v)
  {
    if |s| > 0 {
      SortScoresIsStableSort(s[1..]);
      InsertSorted(s[0], SortScores(s[1..]));
      forall v ensures WithScore(SortScores(s), v) == WithScore(s, v) {
        InsertWithScore(s[0], SortScores(s[1..]), v);
      }
    }
  }

  /** Two sorted lists that agree, score by score, on their entries and
      their order are the same list. */
  lemma {:induction false} SortedGroupsDetermine(a: seq<Entry>, b: seq<Entry>)
    requires Sorted(a) && Sorted(b)
    requires forall v :: WithScore(a, v) == WithScore(b, v)
    ensures a == b
    decreases |a|
  {
    if |a| == 0 || |b| == 0 {
      if |a| > 0 {
        HeadHasGroup(a);
        assert false;
      } else if |b| > 0 {
        HeadHasGroup(b);
        assert false;
      }
    } else {
      var va, vb := a[0].score, b[0].score;
      WithScoreMembers(a, vb);
      WithScoreMembers(b, va);
      assert a[0] in WithScore(a, va);
      assert b[0] in WithScore(b, vb);
      assert va == vb by {
        assert a[0] in WithScore(b, va);
        assert b[0] in WithScore(a, vb);
      }
      assert a[0] == b[0] by {
        assert WithScore(a, va)[0] == a[0];
        assert WithScore(b, va)[0] == b[0];
      }
      forall v ensures WithScore(a[1..], v) == WithScore(b[1..], v) {
        var head := if a[0].score == v then [a[0]] else [];
        var ta, tb := WithScore(a[1..], v), WithScore(b[1..], v);
        assert WithScore(a, v) == head + ta;
        assert WithScore(b, v) == head + tb;
        assert ta == (head + ta)[|head|..];
        assert tb == (head + tb)[|head|..];
      }
      SortedGroupsDetermine(a[1..], b[1..]);
      assert a == [a[0]] + a[1..] && b == [b[0]] + b[1..];
    }
  }

  lemma HeadHasGroup(s: seq<Entry>)
    requires |s| > 0
    ensures WithScore(s, s[0].score) != []
  {
  }

  /** `SortScores` is the only sorted arrangement of `s` that keeps the
      order of equal scores. */
  lemma StableSortUnique(s: seq<Entry>, r: seq<Entry>)
    requires Sorted(r)
    requires forall v :: WithScore(r, v) == WithScore(s, v)
    ensures r == SortScores(s)
  {
    SortScoresIsStableSort(s);
    SortedGroupsDetermine(r, SortScores(s));
  }

  // ---------------------------------------------------------------------
  // The file

  /** The score file: absent, or present with its text. */
  datatype ScoreFile = Missing | Present(text: string)

  /** What `loadScores` leaves in the list, and whether it returned
      normally. */
  datatype Loaded = Loaded(list: seq<Entry>, ok: bool)

  /** `loadScores` with the list showing `shown`: a missing file throws
      before the list is touched; otherwise the list is cleared and filled
      line by line, and sorted when every line loaded. A failing line
      throws, leaving the entries read so far, unsorted. */
  function LoadScores(shown: seq<Entry>, file: ScoreFile): (r: Loaded)
    ensures file.Missing? ==> r == Loaded(shown, false)
    ensures file.Present? ==> (r.ok <==> ParseLines(ReadLines(file.text)).complete)
    ensures r.ok ==> Sorted(r.list) && multiset(r.list) == multiset(ParseLines(ReadLines(file.text)).entries)
    ensures file.Present? && !r.ok ==> r.list == ParseLines(ReadLines(file.text)).entries
  {
    match file
    case Missing => Loaded(shown, false)
    case Present(text) =>
      var reading := ParseLines(ReadLines(text));
      if reading.complete then
        SortScoresIsStableSort(reading.entries);
        SortScoresPermutes(reading.entries);
        Loaded(SortScores(reading.entries), true)
      else Loaded(reading.entries, false)
  }

  /** The list is emptied before reading, so what a present file loads
      does not depend on what was showing, and loading it again changes
      nothing. */
  lemma LoadForgetsShown(a: seq<Entry>, b: seq<Entry>, text: string)
    ensures LoadScores(a, Present(text)) == LoadScores(b, Present(text))
    ensures LoadScores(LoadScores(a, Present(text)).list, Present(text)) == LoadScores(a, Present(text))
  {
  }

  /** The table written when no file exists, one record per line. */
  const DEFAULT_SCORES: string := Record("Jhon", 30) + "\n" + Record("Sarah", 20) + "\n" + Record("Tim", 40)

  /** Spelled out, the default table is the text the scene writes. */
  lemma DefaultScoresText()
    ensures DEFAULT_SCORES == "Jhon:30\nSarah:20\nTim:40"
  {
    assert IntToString(30) == "30" && IntToString(20) == "20" && IntToString(40) == "40";
  }

  /** The default table reads as Jhon, Sarah, Tim, in file order. */
  lemma DefaultEntries()
    ensures ParseLines(ReadLines(DEFAULT_SCORES))
      == Reading([Entry("Jhon", 30), Entry("Sarah", 20), Entry("Tim", 40)], true)
  {
    LoadThreeRecords([], Entry("Jhon", 30), Entry("Sarah", 20), Entry("Tim", 40));
  }

  /** The default table loads as Tim, Jhon, Sarah. */
  lemma DefaultTable(shown: seq<Entry>)
    ensures LoadScores(shown, Present(DEFAULT_SCORES))
      == Loaded([Entry("Tim", 40), Entry("Jhon", 30), Entry("Sarah", 20)], true)
  {
    DefaultEntries();
    SortThree(Entry("Jhon", 30), Entry("Sarah", 20), Entry("Tim", 40));
  }

  /** A file of three well-formed records loads as those entries, sorted. */
  lemma LoadThreeRecords(shown: seq<Entry>, x: Entry, y: Entry, z: Entry)
    requires ':' !in x.name && NoTerminator(x.name) && IsInt32(x.score)
    requires ':' !in y.name && NoTerminator(y.name) && IsInt32(y.score)
    requires ':' !in z.name && NoTerminator(z.name) && IsInt32(z.score)
    ensures var text := Record(x.name, x.score) + "\n" + Record(y.name, y.score) + "\n" + Record(z.name, z.score);
      ParseLines(ReadLines(text)) == Reading([x, y, z], true)
      && LoadScores(shown, Present(text)) == Loaded(SortScores([x, y, z]), true)
  {
    var a, b, c := Record(x.name, x.score), Record(y.name, y.score), Record(z.name, z.score);
    ReadThreeLines(a, b, c);
    ParseRecord(x.name, x.score);
    ParseRecord(y.name, y.score);
    ParseRecord(z.name, z.score);
    ParseThreeLines(a, b, c, x, y, z);
  }

  /** Three lines joined by "\n" read back as those three lines. */
  lemma ReadThreeLines(a: string, b: string, c: string)
    requires |a| > 0 && |b| > 0 && |c| > 0
    requires NoTerminator(a) && NoTerminator(b) && NoTerminator(c)
    ensures ReadLines(a + "\n" + b + "\n" + c) == [a, b, c]
  {
    ReadSingleLine(a);
    ReadLinesAppend(a, b);
    var ab := a + "\n" + b;
    assert ab[|ab| - 1] == b[|b| - 1];
    ReadLinesAppend(ab, c);
  }

  lemma ParseThreeLines(a: string, b: string, c: string, x: Entry, y: Entry, z: Entry)
    requires ParseLine(a) == Ok(x) && ParseLine(b) == Ok(y) && ParseLine(c) == Ok(z)
    ensures ParseLines([a, b, c]) == Reading([x, y, z], true)
  {
    ParseOneLine(a, x);
    ParseLinesAppend([a], b);
    PairOfSingles(a, b);
    PairOfSingles(x, y);
    ParseLinesAppend([a, b], c);
    TripleOfPair(a, b, c);
    TripleOfPair(x, y, z);
  }

  lemma PairOfSingles<T>(p: T, q: T)
    ensures [p] + [q] == [p, q]
  {
  }

  lemma TripleOfPair<T>(p: T, q: T, r: T)
    ensures [p, q] + [r] == [p, q, r]
  {
  }

  lemma ParseOneLine(a: string, x: Entry)
    requires ParseLine(a) == Ok(x)
    ensures ParseLines([a]) == Reading([x], true)
  {
    ParseLinesAppend([], a);
    assert [] + [a] == [a];
  }

  /** Sorting three entries with distinct scores puts them in descending
      order. */
  lemma SortThree(j: Entry, s: Entry, t: Entry)
    requires s.score < j.score < t.score
    ensures SortScores([j, s, t]) == [t, j, s]
  {
    SortTwo(s, t);
    SortCons(j, [s, t]);
    assert [j] + [s, t] == [j, s, t];
    InsertPast(j, [t, s]);
    InsertFront(j, [s]);
    assert [t, s][1..] == [s];
  }

  /** Sorting a fourth entry above the other three puts it first. */
  lemma SortFour(j: Entry, s: Entry, t: Entry, n: Entry)
    requires s.score < j.score < t.score < n.score
    ensures SortScores([j, s, t, n]) == [n, t, j, s]
  {
    SortAscending(s, t, n);
    SortCons(j, [s, t, n]);
    assert [j] + [s, t, n] == [j, s, t, n];
    InsertThird(j, n, t, s);
  }

  lemma InsertThird(j: Entry, n: Entry, t: Entry, s: Entry)
    requires s.score < j.score < t.score < n.score
    ensures Insert(j, [n, t, s]) == [n, t, j, s]
  {
    InsertPast(j, [n, t, s]);
    assert [n, t, s][1..] == [t, s];
    InsertPast(j, [t, s]);
    assert [t, s][1..] == [s];
    InsertFront(j, [s]);
  }

  lemma SortAscending(s: Entry, t: Entry, n: Entry)
    requires s.score < t.score < n.score
    ensures SortScores([s, t, n]) == [n, t, s]
  {
    SortTwo(t, n);
    SortCons(s, [t, n]);
    assert [s] + [t, n] == [s, t, n];
    InsertPast(s, [n, t]);
    assert [n, t][1..] == [t];
    InsertPast(s, [t]);
    assert [t][1..] == [];
    InsertFront(s, []);
  }

  lemma SortTwo(s: Entry, t: Entry)
    requires s.score < t.score
    ensures SortScores([s, t]) == [t, s]
  {
    SortCons(t, []);
    InsertFront(t, []);
    assert [t] + [] == [t];
    SortCons(s, [t]);
    assert [s] + [t] == [s, t];
    InsertPast(s, [t]);
    assert [t][1..] == [];
    InsertFront(s, []);
  }

  lemma SortCons(e: Entry, s: seq<Entry>)
    ensures SortScores([e] + s) == Insert(e, SortScores(s))
  {
    assert ([e] + s)[1..] == s;
  }

  lemma InsertFront(e: Entry, s: seq<Entry>)
    requires |s| == 0 || s[0].score <= e.score
    ensures Insert(e, s) == [e] + s
  {
  }

  lemma InsertPast(e: Entry, s: seq<Entry>)
    requires |s| > 0 && s[0].score > e.score
    ensures Insert(e, s) == [s[0]] + Insert(e, s[1..])
  {
  }

  /** A text the append keeps readable: not empty and not ending in a line
      terminator. */
  predicate EndsInLine(text: string) {
    |text| > 0 && !IsTerminator(text[|text| - 1])
  }

  /** The text after `writeScores` appends a record. */
  function Append(text: string, name: string, score: int): string {
    text + "\n" + Record(name, score)
  }

  /** Appending a well-formed record to a file that loads and ends in a
      line: the file still loads, to the old entries and the new one,
      sorted. */
  lemma AppendThenLoad(shown: seq<Entry>, text: string, name: string, score: int)
    requires LoadScores(shown, Present(text)).ok && EndsInLine(text)
    requires ':' !in name && NoTerminator(name) && IsInt32(score)
    ensures var before := ParseLines(ReadLines(text)).entries;
      LoadScores(shown, Present(Append(text, name, score)))
        == Loaded(SortScores(before + [Entry(name, score)]), true)
    ensures Entry(name, score) in LoadScores(shown, Present(Append(text, name, score))).list
  {
    var line := Record(name, score);
    ReadLinesAppend(text, line);
    ParseRecord(name, score);
    ParseLinesAppend(ReadLines(text), line);
    var after := ParseLines(ReadLines(text)).entries + [Entry(name, score)];
    SortScoresPermutes(after);
    assert Entry(name, score) in multiset(SortScores(after));
  }

  /** A file whose last line ends in a newline loads, but appending to it
      leaves a blank line, and a blank line stops every later load. */
  lemma TrailingNewlineBreaksTable(shown: seq<Entry>, line: string, name: string, score: int)
    requires |line| > 0 && NoTerminator(line) && ParseLine(line).Ok?
    ensures LoadScores(shown, Present(line + "\n")).ok
    ensures !LoadScores(shown, Present(Append(line + "\n", name, score))).ok
  {
    ReadTerminatedLine(line);
    ParseOneLine(line, ParseLine(line).entry);
    BlankLineAfter(line, Record(name, score));
    var lines := ReadLines(Append(line + "\n", name, score));
    assert ParseLine(lines[1]) == Error(MissingScore);
    ParseLinesReadsPrefix(lines);
  }

  /** A line followed by its terminator reads as that one line. */
  lemma ReadTerminatedLine(line: string)
    requires |line| > 0 && NoTerminator(line)
    ensures ReadLines(line + "\n") == [line]
  {
    var t := line + "\n";
    LineLengthExtend(line, "\n");
    assert t[..|line|] == line && t[|line| + 1..] == "";
  }

  /** Two newlines in a row hold an empty line between them. */
  lemma BlankLineAfter(line: string, rec: string)
    requires |line| > 0 && NoTerminator(line)
    ensures var lines := ReadLines(line + "\n" + "\n" + rec); |lines| >= 2 && lines[1] == ""
  {
    var u := line + "\n" + "\n" + rec;
    assert u == line + ("\n\n" + rec);
    LineLengthExtend(line, "\n\n" + rec);
    var rest := u[|line| + 1..];
    assert rest == "\n" + rec;
    assert LineLength(rest) == 0;
    assert ReadLines(rest)[0] == "";
    assert ReadLines(u) == [u[..|line|]] + ReadLines(rest);
  }

  // ---------------------------------------------------------------------
  // Writing a score after a game

  /** The file after `writeScores`, and the list it leaves showing. */
  datatype Written = Written(file: ScoreFile, shown: seq<Entry>)

  /** Whether `score` beats some entry of the list. */
  predicate Beats(score: int, list: seq<Entry>) {
    exists i :: 0 <= i < |list| && score > list[i].score
  }

  /** The score `writeScores` compares with: that of a game it has just
      constructed. With the main `Game`, whose score is a per-game field,
      that is 0. The earlier tree's `Game` keeps its score in a static
      field that construction does not reset; that carried-over score is
      not modelled. */
  const FRESH_SCORE: int := 0

  /** `writeScores` as the earlier copy of the scene has it: a missing file gets the
      default table; otherwise the table is loaded and the fresh game's
      score is appended under `name` when it beats some entry. A load that
      throws writes nothing. */
  function WriteScoresVariant(file: ScoreFile, shown: seq<Entry>, name: string): (w: Written)
    ensures file.Missing? ==> w == Written(Present(DEFAULT_SCORES), shown)
    ensures file.Present? ==> w.shown == LoadScores(shown, file).list
    ensures file.Present? ==> w.file == file || w.file == Present(Append(file.text, name, FRESH_SCORE))
    ensures file.Present? ==>
      (w.file != file <==> LoadScores(shown, file).ok && Beats(FRESH_SCORE, LoadScores(shown, file).list))
  {
    match file
    case Missing => Written(Present(DEFAULT_SCORES), shown)
    case Present(text) =>
      var loaded := LoadScores(shown, file);
      assert |Append(text, name, FRESH_SCORE)| > |text|;
      if loaded.ok && Beats(FRESH_SCORE, loaded.list) then
        Written(Present(Append(text, name, FRESH_SCORE)), loaded.list)
      else Written(file, loaded.list)
  }

  /** `writeScores` as the main copy of the scene has it: the same, except that an
      entry also counts as beaten when the best score on file is 0. The
      loop never runs on an empty table. */
  function WriteScores(file: ScoreFile, shown: seq<Entry>, name: string): (w: Written)
    ensures file.Missing? ==> w == Written(Present(DEFAULT_SCORES), shown)
    ensures file.Present? ==> w.shown == LoadScores(shown, file).list
    ensures file.Present? ==> w.file == file || w.file == Present(Append(file.text, name, FRESH_SCORE))
    ensures file.Present? ==> var list := LoadScores(shown, file).list;
      (w.file != file <==> LoadScores(shown, file).ok && |list| > 0 && (Beats(FRESH_SCORE, list) || list[0].score == 0))
  {
    match file
    case Missing => Written(Present(DEFAULT_SCORES), shown)
    case Present(text) =>
      var loaded := LoadScores(shown, file);
      assert |Append(text, name, FRESH_SCORE)| > |text|;
      if loaded.ok && |loaded.list| > 0 && (Beats(FRESH_SCORE, loaded.list) || loaded.list[0].score == 0) then
        Written(Present(Append(text, name, FRESH_SCORE)), loaded.list)
      else Written(file, loaded.list)
  }

  /** With no negative score on file, the earlier copy never records
      anything: the fresh game's 0 beats no entry. */
  lemma FreshScoreNeverRecorded(shown: seq<Entry>, text: string, name: string)
    requires forall e :: e in ParseLines(ReadLines(text)).entries ==> e.score >= 0
    ensures WriteScoresVariant(Present(text), shown, name).file == Present(text)
  {
    var loaded := LoadScores(shown, Present(text));
    if loaded.ok {
      forall i | 0 <= i < |loaded.list|
        ensures loaded.list[i].score >= FRESH_SCORE
      {
        assert loaded.list[i] in multiset(ParseLines(ReadLines(text)).entries);
      }
    }
  }

  /** The default table therefore never gains a line. */
  lemma DefaultTableNeverGrows(shown: seq<Entry>, name: string)
    ensures WriteScoresVariant(Present(DEFAULT_SCORES), shown, name).file == Present(DEFAULT_SCORES)
    ensures WriteScores(Present(DEFAULT_SCORES), shown, name).file == Present(DEFAULT_SCORES)
  {
    VariantKeepsDefault(shown, name);
    MainKeepsDefault(shown, name);
  }

  lemma VariantKeepsDefault(shown: seq<Entry>, name: string)
    ensures WriteScoresVariant(Present(DEFAULT_SCORES), shown, name).file == Present(DEFAULT_SCORES)
  {
    DefaultEntriesNonNegative();
    FreshScoreNeverRecorded(shown, DEFAULT_SCORES, name);
  }

  lemma DefaultEntriesNonNegative()
    ensures forall e :: e in ParseLines(ReadLines(DEFAULT_SCORES)).entries ==> e.score >= 0
  {
    DefaultEntries();
  }

  lemma MainKeepsDefault(shown: seq<Entry>, name: string)
    ensures WriteScores(Present(DEFAULT_SCORES), shown, name).file == Present(DEFAULT_SCORES)
  {
    DefaultTable(shown);
    var list := [Entry("Tim", 40), Entry("Jhon", 30), Entry("Sarah", 20)];
    assert !Beats(FRESH_SCORE, list) && list[0].score != 0;
    NeedsBeatOrZero(shown, DEFAULT_SCORES, name);
  }

  /** Without a beaten entry and with a best score other than 0, the
      main copy writes nothing either. */
  lemma NeedsBeatOrZero(shown: seq<Entry>, text: string, name: string)
    requires var list := LoadScores(shown, Present(text)).list;
      !Beats(FRESH_SCORE, list) && (|list| > 0 ==> list[0].score != 0)
    ensures WriteScores(Present(text), shown, name).file == Present(text)
  {
  }

  /** The main copy records a 0 whenever the best score on file is
      0, although the player's game played no part in it. */
  lemma ZeroTopRecordsZero(shown: seq<Entry>, text: string, name: string)
    requires LoadScores(shown, Present(text)).ok
    requires |LoadScores(shown, Present(text)).list| > 0
    requires LoadScores(shown, Present(text)).list[0].score == 0
    ensures WriteScores(Present(text), shown, name).file == Present(Append(text, name, 0))
  {
  }

  /** `writeScores` with the player's final score in place of the fresh
      game's: the score is appended under `name` when it beats some entry
      on file. */
  function WriteFinalScore(file: ScoreFile, shown: seq<Entry>, name: string, finalScore: int): (w: Written)
    ensures file.Missing? ==> w == Written(Present(DEFAULT_SCORES), shown)
    ensures file.Present? ==> w.shown == LoadScores(shown, file).list
    ensures file.Present? ==>
      (w.file == Present(Append(file.text, name, finalScore)) <==>
        (LoadScores(shown, file).ok && Beats(finalScore, LoadScores(shown, file).list)))
    ensures file.Present? && !(LoadScores(shown, file).ok && Beats(finalScore, LoadScores(shown, file).list)) ==>
      w.file == file
  {
    match file
    case Missing => Written(Present(DEFAULT_SCORES), shown)
    case Present(text) =>
      var loaded := LoadScores(shown, file);
      assert |Append(text, name, finalScore)| > |text|;
      if loaded.ok && Beats(finalScore, loaded.list) then
        Written(Present(Append(text, name, finalScore)), loaded.list)
      else Written(file, loaded.list)
  }

  /** A final score that beats an entry of a well-formed table is on the
      table the next time it loads, in its sorted place. */
  lemma FinalScoreRecorded(shown: seq<Entry>, text: string, name: string, finalScore: int)
    requires LoadScores(shown, Present(text)).ok && EndsInLine(text)
    requires Beats(finalScore, LoadScores(shown, Present(text)).list)
    requires ':' !in name && NoTerminator(name) && IsInt32(finalScore)
    ensures var w := WriteFinalScore(Present(text), shown, name, finalScore);
      w.file.Present? && LoadScores(shown, w.file).ok
      && Entry(name, finalScore) in LoadScores(shown, w.file).list
      && Sorted(LoadScores(shown, w.file).list)
  {
    AppendThenLoad(shown, text, name, finalScore);
  }

  /** A final score of 50 on the default table is recorded, ahead of
      every entry. */
  lemma DefaultTableTakesFifty(shown: seq<Entry>, name: string)
    requires ':' !in name && NoTerminator(name)
    ensures var w := WriteFinalScore(Present(DEFAULT_SCORES), shown, name, 50);
      w.file == Present(Append(DEFAULT_SCORES, name, 50))
      && LoadScores(shown, w.file).list
        == [Entry(name, 50), Entry("Tim", 40), Entry("Jhon", 30), Entry("Sarah", 20)]
  {
    FiftyWritten(shown, name);
    FiftyLoaded(shown, name);
  }

  lemma FiftyWritten(shown: seq<Entry>, name: string)
    ensures WriteFinalScore(Present(DEFAULT_SCORES), shown, name, 50).file
      == Present(Append(DEFAULT_SCORES, name, 50))
  {
    DefaultTable(shown);
    var list := [Entry("Tim", 40), Entry("Jhon", 30), Entry("Sarah", 20)];
    assert 50 > list[0].score;
  }

  lemma FiftyLoaded(shown: seq<Entry>, name: string)
    requires ':' !in name && NoTerminator(name)
    ensures LoadScores(shown, Present(Append(DEFAULT_SCORES, name, 50))).list
      == [Entry(name, 50), Entry("Tim", 40), Entry("Jhon", 30), Entry("Sarah", 20)]
  {
    DefaultEndsInLine();
    DefaultEntries();
    AppendAboveThree(shown, DEFAULT_SCORES, Entry("Jhon", 30), Entry("Sarah", 20), Entry("Tim", 40), Entry(name, 50));
  }

  /** Appending an entry that outscores a three-entry table puts it at the
      top. */
  lemma AppendAboveThree(shown: seq<Entry>, text: string, j: Entry, s: Entry, t: Entry, n: Entry)
    requires ParseLines(ReadLines(text)) == Reading([j, s, t], true) && EndsInLine(text)
    requires ':' !in n.name && NoTerminator(n.name) && IsInt32(n.score)
    requires s.score < j.score < t.score < n.score
    ensures LoadScores(shown, Present(Append(text, n.name, n.score))).list == [n, t, j, s]
  {
    var appended := Append(text, n.name, n.score);
    assert LoadScores(shown, Present(appended)).list == SortScores([j, s, t] + [n]) by {
      AppendThenLoad(shown, text, n.name, n.score);
    }
    assert SortScores([j, s, t] + [n]) == [n, t, j, s] by {
      assert [j, s, t] + [n] == [j, s, t, n];
      SortFour(j, s, t, n);
    }
  }

  lemma DefaultEndsInLine()
    ensures EndsInLine(DEFAULT_SCORES)
  {
    var last := Record("Tim", 40);
    assert DEFAULT_SCORES[|DEFAULT_SCORES| - 1] == last[|last| - 1];
  }
}
